=== FILE: README.md ===
# js2d `make2d` in Dafny

js2d flattens a nested JSON value into a table. `make2d(definition, obj)`
takes a column definition and a document:

- **Definition.** It can be an array of column paths, a `|`-separated string of paths, or a plain object whose values are paths.
- **Paths.** A path is a `.`-separated list of tokens, where a `*` token means "every element here".
- **Loopers.** Each column is split into segments that end at a `*` (`splitStar`). The `*`-ending segments of all columns are registered by position into one list of loopers. Two columns that disagree at the same position are rejected with "loops don't match".
- **Iterators.** Each looper becomes an iterator. The first iterates the collection found from the document root (`simpleIterator`). Each later one iterates, for every element of its parent, the collection found below that element (`nestedIterator`).
- **Rows.** Every step of the deepest iterator produces one row. Each column is read (`getValue`) from the current element of the iterator named by its second-to-last segment, or from the root when the column has one segment.
- **Output.** The rows are returned as they are for an array or string definition. For an object definition, each row becomes a record keyed by the definition's keys.

The model is pure and functional:

- **Documents.** A document is a `Json` datatype whose objects keep their entries in enumeration order. A cell is `Undefined` or a `Json` value. Every thrown error is an `Err` of a `Result`.
- **Iterators.** The iterator chain is a stream of *ticks*. A tick is the tuple of the current elements of all iterators, shallowest first. The stream ends in either `done` or the error thrown by the next `next()` call. That order is what decides whether a row error or an iterator error is reported.
- **Methods.** `Resolve.ResolveLoop` is the loop of `getValue` written as a method. `Iterate.DrainNested` drives `nestedIterator`'s `next()` to its end as an outer loop over the parent ticks around an inner loop that drains the collection found below each one. Each is proved equal to its functional counterpart.

Modules:

- `Wrappers`: `Option`, `Result` and the error kinds.
- `Json`: the document type.
- `Strings`: `split` and `trim`.
- `Paths`: `splitStar`.
- `Resolve`: `getValue` and `getIterator`.
- `Registry`: `arrayEquals` and looper registration.
- `Iterate`: the iterator chain.
- `Flatten`: compiling a definition, row assembly and `make2d`.
- `Laws`: properties of the whole.
- `Examples`: concrete tables, including the repeated-looper counterexample under "Findings".

## Model

| member | source | states |
|---|---|---|
| Json.Lookup | index.js:240-241 | a key is found iff some entry has it, and the value found belongs to an entry with that key |
| Json.ValueUnderKey | index.js:240-241 | in an object with distinct keys, looking up the `i`-th key of `Object.keys` finds the `i`-th value of `Object.values` |
| Strings.SplitOn | index.js:253 | `split` on a character: at least one piece, no piece contains the separator, and joining the pieces with it gives back the string |
| Strings.SplitJoin | index.js:17 | splitting the join of separator-free pieces gives exactly those pieces back (the round trip of a pipe-separated definition) |
| Strings.JoinInjective | index.js:99-100 | two lists of `.`-free tokens with equal joined paths are equal, so comparing joined paths compares token lists |
| Strings.TrimStart | index.js:17 | what `trim` removes in front is white space, and the rest does not start with white space |
| Strings.TrimEnd | index.js:17 | what `trim` removes at the end is white space, and the rest does not end with white space |
| Strings.TrimSpec | index.js:17 | a trimmed column has no white space at either end, and a column that has none is left unchanged |
| Paths.Adjusted | index.js:150 | `path.slice(0,-1)` of a looper: the looper is this path followed by `*` |
| Paths.SplitStarFrom | index.js:257-268 | the `splitStar` loop: every segment is non-empty, only a segment's last token may be `*`, every segment but the last ends in `*`, and the segments concatenate to the pending tokens followed by the rest |
| Paths.SplitStarShape | index.js:252-270 | `splitStar` cuts the token list into non-empty segments that each end at a `*` except possibly the last, and concatenating them gives back the token list |
| Paths.SplitStarConcat | index.js:252-270 | round trip: `splitStar` of the concatenation of well-segmented segments gives back exactly those segments |
| Paths.SplitStarNoStar | index.js:258-268 | a token list without `*` stays one segment |
| Paths.StarSegsOfWellSegmented | index.js:34 | the `*`-ending filter keeps every segment, except a last one that does not end in `*` |
| Paths.StarSegsKeeps | index.js:34 | the `onlyStars` filter keeps exactly the segments that end in `*`: a segment is kept iff it is one of the column's segments and its last token is `*` |
| Resolve.ParseIndex | index.js:228 | a token is an array index iff it is a non-empty string of decimal digits |
| Resolve.Decimal | index.js:228 | round trip: the decimal text of any natural number is a non-empty digit string that the index parse reads back as that number |
| Resolve.GetValue | index.js:217-250 | the empty path gives back the base, any token at `undefined` throws naming that token, and the only errors are that one and a step into null or a primitive |
| Resolve.ResolveLoop | index.js:217-250 | the statement-for-statement loop of `getValue` computes exactly the recursive walk |
| Resolve.GetValueAppend | index.js:220-248 | walking `p + q` is walking `p`, then `q` from the value found, and an error on `p` is the error of the whole walk |
| Resolve.MissingIsUndefined | index.js:223-246 | after an empty array, an index past the end or an absent key, the whole walk is `undefined` whatever tokens follow |
| Resolve.UndefinedThenStepFails | index.js:228-238 | a non-numeric token on a non-empty array gives `undefined`, and one more token after it throws |
| Resolve.ArrayElementsAreIndexed | index.js:212-233 | `getIterator` of an array yields, at position `i`, exactly the element that a one-token `getValue` with the index `i` reads |
| Resolve.IndexedAreArrayElements | index.js:212-233 | whatever a one-token `getValue` reads from an array is one of the elements `getIterator` yields for it |
| Resolve.ObjectValuesAreKeyed | index.js:212-241 | in an object with distinct keys, `getIterator` yields, at position `i`, exactly the value that a one-token `getValue` with the `i`-th key reads |
| Resolve.KeyedAreObjectValues | index.js:212-241 | whatever a one-token `getValue` reads from an object is one of the values `getIterator` yields for it |
| Registry.ArrayEquals | index.js:272-277 | true iff the two token lists are equal |
| Registry.RegisterFrom | index.js:36-46 | registering from position `i`: succeeds iff every known position agrees, then the list is the old one extended by the new positions, and on failure the error names a disagreeing pair |
| Registry.Register | index.js:34-46 | registration succeeds iff the column's `*`-segments agree with the known loopers, and then gives the merged list; otherwise it fails with "loops don't match" |
| Registry.MergeAt | index.js:38-45 | the merged list keeps every known looper at its position and takes the column's segment at each new position |
| Iterate.RootElems | index.js:192-194 | the root iterator throws when its path resolves to `undefined` or null, propagates an error of the walk, and otherwise enumerates an array's elements in order or an object's values in key order |
| Iterate.Children | index.js:164-172 | below one parent element, an `undefined` collection opens no elements, a null one throws the empty-iterable error, a failed walk passes its error on, and every error is one the document causes |
| Iterate.Nest | index.js:153-183 | the nested stream ends as its parent stream does when every parent tick's collection is found, and otherwise with the error of the first parent tick whose collection is not |
| Iterate.DrainNested | index.js:153-183 | calling `next()` of `nestedIterator` until it is done or throws (pull a parent tick when no inner iterator is open, skip an `undefined` collection, drain the open one) produces exactly the parent-major nested stream |
| Iterate.NestSound | index.js:159-179 | every nested tick is a parent tick extended by one element of the collection found below the parent's current element |
| Iterate.NestComplete | index.js:159-179 | if the nested stream ends without error, every element below every parent tick appears as a nested tick |
| Iterate.NestFailureKind | index.js:159-172 | a nested stream fails only with a path error or an empty-iterable error |
| Iterate.Chain | index.js:51-66 | every tick of the iterator chain holds one element per looper |
| Iterate.ChainSound | index.js:51-66 | lockstep: in every tick, each element belongs to the collection found below the previous one (the root collection for the first) |
| Iterate.ChainComplete | index.js:51-66 | if the chain ends without error, every aligned tuple of elements appears as a tick |
| Iterate.ChainFailureKind | index.js:51-66 | the iterator chain fails only with a path error or an empty-iterable error |
| Iterate.RootComplete | index.js:192-201 | every element of the root collection appears as a one-element tick |
| Flatten.ColumnSegmentsShape | index.js:30 | a column's segments are well segmented, concatenate back to its `.`-split tokens, and contain no `.` |
| Flatten.DefinitionColumns | index.js:11-20 | arrays, strings and objects without an own `constructor` key are accepted, and anything else is rejected with the bad-definition error; an array's columns are its elements, and an accepted object's columns are its values in key order |
| Flatten.MaxDepth | index.js:34-46 | the largest number of `*`-segments over all columns, attained by some column |
| Flatten.CompileFrom | index.js:25-47 | the column loop records one segment list per column and fails only on a non-string column or "loops don't match" |
| Flatten.CompileSpec | index.js:25-47 | the column loop succeeds iff the columns are strings whose `*`-segments agree at every depth. Then each column's segments are recorded, and `loopers[i]` is every column's `i`-th `*`-segment. The list is as long as the deepest column. An all-string failure is "loops don't match". A failure is raised at the first offending column `j`: the columns before `j` are consistent strings; a non-string column `j` gives the not-a-string error; a string column `j` that makes the first `j + 1` columns inconsistent gives "loops don't match" |
| Flatten.CompileFromFailsAt | index.js:25-46 | when the loop fails from a consistent prefix of `k` columns, it fails at some column `j >= k` that is the first offending one, with the error that column calls for |
| Flatten.CompileFromSpec | index.js:25-47 | from any consistent prefix, the rest of the column loop keeps the registry invariant and succeeds iff all the columns are consistent |
| Flatten.CompileFromColumns | index.js:25-31 | a successful column loop saw only strings and recorded exactly their segments |
| Flatten.NoColumnNotString | index.js:25-46 | with only string columns, the column loop can fail only with "loops don't match" |
| Flatten.RegisterConsistent | index.js:36-46 | registering a column succeeds iff adding it keeps every depth agreeing across columns |
| Flatten.RegisterKeepsInvariant | index.js:36-46 | registration keeps the invariant: every `*`-segment of every column is the looper at its depth, the list is as long as the deepest column, and no looper token contains `.` |
| Flatten.FindByPath | index.js:100 | `find` by joined path returns the first looper whose joined path equals the one sought, or nothing when none does |
| Flatten.LookupFound | index.js:98-108 | for a column of several segments, the lookup always finds a looper equal to its second-to-last segment, so a failed `find` cannot occur |
| Flatten.Cell | index.js:93-110 | a cell fails only because no iterator was found for it or because `getValue` failed |
| Flatten.CellSpec | index.js:94-110 | a one-segment column is read from the root; otherwise it is read from the current element of an iterator whose looper is its second-to-last segment, at that segment's own depth under the corrected rule |
| Flatten.RowOf | index.js:92-119 | a row succeeds iff every column's cell does, and then holds one value per column in column order; on failure it carries the error of the first failing column |
| Flatten.AssembleRows | index.js:88-121 | the row loop succeeds iff every tick's row does and the chain ends without error, and then has one row per tick, in tick order. A failure is the error of the first failing row, or the chain's own error once every row was built |
| Flatten.Ticks | index.js:68-84 | every tick holds one element per looper |
| Flatten.Build | index.js:25-121 | a column error is reported before any iteration; a successful result holds one row per tick of the deepest iterator, each with one value per column |
| Flatten.ShapeRecordsRead | index.js:126-135 | `objRow[key] = row[index]` read back: with distinct definition keys, property `key` of record `i` holds row `i`'s cell at that key's position, or `undefined` past the row's end |
| Flatten.Make2dWith | index.js:9-136 | a definition that is not an array, plain object or string is rejected, and a successful result is records exactly when the definition is an object. For an array definition the result is exactly the rows built from its columns, or the error of building them |
| Flatten.Make2dAsWritten | index.js:9-136 | `make2d` with the lookup as written: bad definitions are rejected, the result is records exactly for an object definition, and for an array definition it is exactly the rows built from its columns, or the error of building them |
| Flatten.Make2d | index.js:9-136 | `make2d` with the corrected lookup: the same rejection of bad definitions, records exactly for an object definition, and for an array definition exactly the rows built from its columns, or the error of building them |
| Laws.BuildErrors | index.js:25-121 | building rows fails only with a non-string column, "loops don't match", a path error or an empty-iterable error |
| Laws.ValidCellsResolve | index.js:93-110 | in a registered compilation every failing cell fails with a data error, never with a missing iterator |
| Laws.AssembleErrors | index.js:88-121 | when cells and the chain fail only with data errors, the row loop does too |
| Laws.Make2dErrors | index.js:9-136 | `make2d` fails only with a bad definition, a non-string column, "loops don't match", a path error or an empty-iterable error |
| Laws.RowsFollowTicks | index.js:88-121 | a successful table has exactly one row per tick of the deepest iterator. Each row has one value per column, each value read against the tick's elements. The ticks are exactly the aligned tuples, or the single empty tick when there are no loopers |
| Laws.NoStarSingleRow | index.js:68-84 | with no `*` in any column the table succeeds iff every column resolves from the root, and it is then exactly one row of those values |
| Laws.NoStarCompile | index.js:25-47 | with no `*` in any column there are no loopers and each column is one segment |
| Laws.DefinitionOfJoin | index.js:16-17 | the pipe-joined definition of trimmed, pipe-free columns splits back into exactly those columns |
| Laws.StringMatchesArray | test/test.js:40-45 | a string definition gives the same result as the array of its columns |
| Laws.ObjectMatchesArray | index.js:123-135 | an object definition with an own `constructor` key is rejected. Any other fails exactly when the array of its values fails, with the same error, and otherwise gives one record per row, mapping each key, in key order, to that row's value |
| Laws.RecordKeysReadCells | index.js:126-135 | with distinct definition keys, property `key` of record `i` of an object definition's table is the cell that the array of its values gives at row `i` in that key's column |
| Laws.RowOfSameBase | index.js:98-101 | when both lookup rules pick the same iterator for every column, they build the same row |
| Laws.AssembleSameBase | index.js:88-121 | when both lookup rules pick the same iterator for every column, they build the same rows |
| Laws.DistinctSameBase | index.js:99-100 | with pairwise distinct loopers, the first looper with a matching path is the one at the column's own depth |
| Laws.BuildAgreesWhenDistinct | index.js:99-101 | with pairwise distinct loopers, the lookup as written and the corrected lookup build the same rows |
| Laws.AsWrittenAgreesWhenDistinct | index.js:99-101 | with pairwise distinct loopers, `make2d` as written and corrected give the same result |
| Laws.RowOfCells | index.js:92-119 | a row is exactly its cells, when every cell succeeds |
| Laws.AssembleOfRows | index.js:88-121 | the table is exactly its rows, when every row succeeds and the chain ends without error |
| Examples.RepeatedLooperAsWritten | index.js:99-101 | as written, the column `*.*.x` over `[[{"x":1},{"x":2}]]` gives two `undefined` cells |
| Examples.RepeatedLooperCorrected | index.js:99-101 | with the corrected lookup, the same call gives the rows `[1]` and `[2]` |
| Examples.ArrayRootRows | test/test.js:54-69 | over three people, the second without an address, the columns `*.fname` and `*.address.*.type` give one row per address and none for the person without one |
| Examples.ConstructorKeyRejected | index.js:279-281 | the definition `{"constructor": "a"}` fails `isObject` and is rejected with the bad-definition error, both as written and corrected |

## Left out

- parseInt prefixes: `getValue` takes only a token of decimal digits as an index. JavaScript's `parseInt` also reads a hexadecimal token (`"0x1"` is 1), a leading number with trailing text (`"1abc"`), leading white space and a sign. The model treats those tokens like any other non-numeric token, so the element read is `undefined`. A negative or non-numeric token gives `undefined` in both.
- The prototype chain: the `in` test of `getValue` also sees inherited properties (`"constructor"`, `"toString"`). The model looks only at an object's own entries.
- Flatten.ShapeRecordsRead, Laws.RecordKeysReadCells, Laws.ObjectMatchesArray: these read each cell back under its key, which does not hold for the key `"__proto__"`. The assignment `objRow[key] = row[index]` (index.js:129-131) with that key calls the inherited prototype setter: a primitive cell is dropped and an object or `null` cell replaces the record's prototype. The record then has no own `"__proto__"` property. `Flatten.Shape` stores every key, `"__proto__"` included, as an own entry, so for that key the model's records differ from JavaScript's.
- Key order: JavaScript enumerates integer-like keys first, in numeric order. Object entries here are kept in the order given, which stands for the enumeration order.
- Duplicate keys: JSON objects are taken to have distinct keys. `Lookup` returns the first entry with the key.
- Numbers are modelled as integers. Floating-point values and their printing are not modelled.
- Strings are modelled as sequences of Dafny characters, not UTF-16 code units. Iterating a string yields one element per character.
- `isObject`: modelled as `Flatten.IsPlainObject`, a JSON object without an own `constructor` key. A parsed object inherits `Object` as its constructor unless it has such a key, and no JSON value is the `Object` function. No other values come from JSON.
- Error text: each thrown message is an error kind, and the message text is not modelled.
- `column.split("(\*)")` (index.js:28) is dead code. The implicit global `first` (index.js:71) is modelled as a single tick of no elements. The `console.log` calls are dropped.
- The `undefined`-base error at index.js:102-108 cannot occur: JSON arrays and objects hold no `undefined`, and `Flatten.LookupFound` shows the lookup always finds an iterator. The model's `MissingLooper` error stands in for a failed `find`. `Laws.ValidCellsResolve` shows it never arises.
- The JavaScript iterator objects and their mutable `current` cursors are modelled as a stream of tuples. `current()` of each iterator is the matching component of the tuple.
- File reading and the mocha test runner in test/test.js are not modelled. Nor are the AWS Rekognition sample fixture and its floating-point expectations.
- Resolve.GetValue: its own contract states only the base cases and the error kinds. Its meaning is given by `Resolve.ResolveLoop`, `Resolve.GetValueAppend`, `Resolve.MissingIsUndefined` and `Resolve.UndefinedThenStepFails`.
- Iterate.NestSound, Iterate.NestComplete: these relate the nested stream to its parent as sets of ticks. Their order is fixed by `Iterate.Nest` itself, which `Iterate.DrainNested` is proved equal to.

## Findings

| source | as written | input that shows it | evidently intended | confidence | as-written member | corrected member |
|---|---|---|---|---|---|---|
| index.js:99-101 | a column's base iterator is the first whose joined path equals the column's joined second-to-last segment, so a looper that repeats at two depths (such as `*` twice) always resolves to the shallower iterator | definition `["*.*.x"]` on `[[{"x":1},{"x":2}]]` gives `[[undefined],[undefined]]` | the iterator at the depth of the column's own segment, giving `[[1],[2]]` | not executed | Examples.RepeatedLooperAsWritten | Examples.RepeatedLooperCorrected |

=== FILE: examples.dfy ===
/** Concrete `make2d` calls: a column with a repeated looper, where the
    lookup as written and the corrected lookup differ, and a reduced form of
    the array-root test. Column texts are written as their tokens joined
    with `.`. */
module Examples {
  import opened Wrappers
  import opened Json
  import opened Strings
  import opened Paths
  import opened Resolve
  import opened Registry
  import opened Iterate
  import opened Flatten
  import opened Laws

  /** The column `*.*.x`. */
  const RepeatedText: string := Join(["*", "*", "x"], '.')
  /** The column `*.fname`. */
  const NameText: string := Join(["*", "fname"], '.')
  /** The column `*.address.*.type`. */
  const TypeText: string := Join(["*", "address", "*", "type"], '.')

  /** A column whose tokens are well segmented into `segs` compiles to
      `segs`. */
  lemma ColumnOf(tokens: seq<string>, segs: seq<Path>)
    requires |tokens| > 0 && forall i :: 0 <= i < |tokens| ==> '.' !in tokens[i]
    requires WellSegmented(segs) && Concat(segs) == tokens
    ensures ColumnSegments(Join(tokens, '.')) == segs
  {
    SplitJoin(tokens, '.');
    SplitStarConcat(segs);
  }

  /** One compile step with the column's segments and the merged loopers
      already known. */
  lemma CompileNext(cols: seq<Json>, k: nat, acc: Compiled, segs: Segments, loopers: seq<Looper>)
    requires k < |cols| && |acc.splits| == k && cols[k].JStr?
    requires ColumnSegments(cols[k].s) == segs
    requires Agrees(acc.loopers, StarSegs(segs)) && Merge(acc.loopers, StarSegs(segs)) == loopers
    ensures CompileFrom(cols, k, acc) == CompileFrom(cols, k + 1, Compiled(acc.splits + [segs], loopers))
  {
    CompileAdvance(cols, k, acc);
  }

  /** The ticks of a two-looper chain, from the root stream and the nested
      step below it. */
  lemma TwoLevelTicks(doc: Json, l0: Looper, l1: Looper, ps: seq<Tick>, s: Stream)
    requires Chain(doc, [l0]) == Stream(ps, None)
    requires Nest(ps, None, Adjusted(l1)) == s
    ensures Ticks(doc, [l0, l1]) == (s.items, s.failure)
  {
    var L := [l0, l1];
    assert L[..1] == [l0];
    ChainStep(doc, L);
    assert Chain(doc, L) == s;
  }

  const X1: Json := JObj([("x", JNum(1))])
  const X2: Json := JObj([("x", JNum(2))])
  const Inner: Json := JArr([X1, X2])
  /** `[[{"x":1},{"x":2}]]` */
  const Nested: Json := JArr([Inner])

  const RepeatedCol: Segments := [["*"], ["*"], ["x"]]
  const RepeatedLoopers: seq<Looper> := [["*"], ["*"]]

  lemma RepeatedColumn()
    ensures ColumnSegments(RepeatedText) == RepeatedCol
  {
    assert Concat(RepeatedCol) == ["*", "*", "x"];
    ColumnOf(["*", "*", "x"], RepeatedCol);
  }

  /** Both `*`-segments of the column are new loopers. */
  lemma RepeatedStars()
    ensures StarSegs(RepeatedCol) == RepeatedLoopers
  {
    var t1 := RepeatedCol[1..];
    var t2 := t1[1..];
    assert t1 == [["*"], ["x"]] && t2 == [["x"]] && t2[1..] == [];
    assert StarSegs(t2[1..]) == [];
    assert StarSegs(t2) == [];
    assert StarSegs(t1) == [["*"]] + [];
    assert [["*"]] + [["*"]] == RepeatedLoopers;
  }

  lemma RepeatedCompile()
    ensures Compile([JStr(RepeatedText)]) == Ok(Compiled([RepeatedCol], RepeatedLoopers))
  {
    var cols := [JStr(RepeatedText)];
    RepeatedColumn();
    RepeatedStars();
    assert cols[0].s == RepeatedText;
    assert Agrees([], RepeatedLoopers);
    CompileAdvance(cols, 0, Compiled([], []));
    assert Merge([], RepeatedLoopers) == RepeatedLoopers by {
      assert [] + RepeatedLoopers[0..] == RepeatedLoopers;
    }
    assert [] + [RepeatedCol] == [RepeatedCol];
    var acc := Compiled([RepeatedCol], RepeatedLoopers);
    assert CompileFrom(cols, 1, acc) == Ok(acc);
  }

  /** A root `*` over an array enumerates its elements. */
  lemma ArrayRoot(doc: Json)
    requires doc.JArr?
    ensures RootElems(doc, ["*"]) == Ok(doc.elems)
  {
    var p := Adjusted(["*"]);
    assert p == [];
    assert GetValue(p, Def(doc)) == Ok(Def(doc));
    assert GetIterator(Def(doc)) == Ok(doc.elems);
  }

  lemma RepeatedRoot()
    ensures Chain(Nested, [["*"]]) == Stream([[Inner]], None)
  {
    ArrayRoot(Nested);
    var items := RootStream(Nested, ["*"]).items;
    assert |items| == 1 && items[0] == [Inner];
    assert items == [[Inner]];
  }

  lemma RepeatedNest()
    ensures Nest([[Inner]], None, []) == Stream([[Inner, X1], [Inner, X2]], None)
  {
    var p: Tick := [Inner];
    assert Cur(p) == Inner;
    assert GetValue([], Def(Inner)) == Ok(Def(Inner));
    assert Children(Inner, []) == Ok([X1, X2]);
    var ext := Extend(p, [X1, X2]);
    assert ext[0] == p + [X1] == [Inner, X1];
    assert ext[1] == p + [X2] == [Inner, X2];
    assert ext == [[Inner, X1], [Inner, X2]];
    assert [p][1..] == [];
    assert Nest([], None, []) == Stream([], None);
    assert ext + [] == ext;
  }

  lemma RepeatedTicks()
    ensures Ticks(Nested, [["*"], ["*"]]) == ([[Inner, X1], [Inner, X2]], None)
  {
    assert Adjusted(["*"]) == [];
    RepeatedRoot();
    RepeatedNest();
    TwoLevelTicks(Nested, ["*"], ["*"], [[Inner]], Stream([[Inner, X1], [Inner, X2]], None));
  }

  /** An array definition whose columns compile, whose iterator chain
      finishes, and whose ticks all build, gives exactly those rows. */
  lemma ArrayTable(rule: BaseRule, cols: seq<Json>, doc: Json, comp: Compiled,
                   ticks: seq<seq<Json>>, rows: seq<seq<Value>>)
    requires Compile(cols) == Ok(comp) && Ticks(doc, comp.loopers) == (ticks, None)
    requires AssembleRows(rule, doc, comp.loopers, comp.splits, ticks, None) == Ok(rows)
    ensures Make2dWith(rule, JArr(cols), doc) == Ok(Rows(rows))
  {
    assert Build(rule, cols, doc) == Ok(rows);
  }

  /** The two rows over the ticks of `Nested`, given the cells of both. */
  lemma RepeatedRows(rule: BaseRule, a: Value, b: Value)
    requires Cell(rule, Nested, [["*"], ["*"]], [["*"], ["*"], ["x"]], [Inner, X1]) == Ok(a)
    requires Cell(rule, Nested, [["*"], ["*"]], [["*"], ["*"], ["x"]], [Inner, X2]) == Ok(b)
    ensures Make2dWith(rule, JArr([JStr(RepeatedText)]), Nested) == Ok(Rows([[a], [b]]))
  {
    var L: seq<Looper> := [["*"], ["*"]];
    var splits: seq<Segments> := [RepeatedCol];
    var t1: seq<Json> := [Inner, X1];
    var t2: seq<Json> := [Inner, X2];
    RowOfCells(rule, Nested, L, splits, t1, [a]);
    RowOfCells(rule, Nested, L, splits, t2, [b]);
    AssembleOfRows(rule, Nested, L, splits, [t1, t2], [[a], [b]]);
    RepeatedCompile();
    RepeatedTicks();
    ArrayTable(rule, [JStr(RepeatedText)], Nested, Compiled(splits, L), [t1, t2], [[a], [b]]);
  }

  /** As written, the column `*.*.x` is resolved against the outer iterator
      (whose current element is the inner array), so both cells are
      undefined. */
  lemma RepeatedLooperAsWritten()
    ensures Make2dAsWritten(JArr([JStr(RepeatedText)]), Nested) == Ok(Rows([[Undefined], [Undefined]]))
  {
    var L: seq<Looper> := [["*"], ["*"]];
    var segs: Segments := [["*"], ["*"], ["x"]];
    assert Join(["*"], '.') == "*";
    assert FindByPath(L, "*", 0) == Some(0);
    assert BaseIndex(FirstPathMatch, L, segs) == Some(0);
    assert ParseIndex("x").None?;
    assert GetValue(["x"], Def(Inner)) == Ok(Undefined);
    RepeatedRows(FirstPathMatch, Undefined, Undefined);
  }

  /** With the column resolved at its own depth, the cells are the two `x`
      values. */
  lemma RepeatedLooperCorrected()
    ensures Make2d(JArr([JStr(RepeatedText)]), Nested) == Ok(Rows([[Def(JNum(1))], [Def(JNum(2))]]))
  {
    assert Lookup(X1.entries, "x") == Some(JNum(1));
    assert Lookup(X2.entries, "x") == Some(JNum(2));
    assert GetValue(["x"], Def(X1)) == Ok(Def(JNum(1)));
    assert GetValue(["x"], Def(X2)) == Ok(Def(JNum(2)));
    RepeatedRows(OwnDepth, Def(JNum(1)), Def(JNum(2)));
  }

  /* A reduced form of the array-root test: three people, the second
     without an address, flattened on `*.fname` and `*.address.*.type`. */

  const Home: Json := JObj([("type", JStr("home"))])
  const Work: Json := JObj([("type", JStr("work"))])
  const Michael: Json := JObj([("fname", JStr("Michael")), ("address", JArr([Home, Work]))])
  const Lawrence: Json := JObj([("fname", JStr("Lawrence"))])
  const Bill: Json := JObj([("fname", JStr("Bill")), ("address", JArr([Home]))])
  const People: Json := JArr([Michael, Lawrence, Bill])

  const NameCol: Segments := [["*"], ["fname"]]
  const TypeCol: Segments := [["*"], ["address", "*"], ["type"]]
  const PeopleLoopers: seq<Looper> := [["*"], ["address", "*"]]

  lemma NameColumn()
    ensures ColumnSegments(NameText) == NameCol
  {
    assert Concat(NameCol) == ["*", "fname"];
    ColumnOf(["*", "fname"], NameCol);
  }

  lemma TypeColumn()
    ensures ColumnSegments(TypeText) == TypeCol
  {
    assert Concat(TypeCol) == ["*", "address", "*", "type"];
    ColumnOf(["*", "address", "*", "type"], TypeCol);
  }

  const PeopleDef: seq<Json> := [JStr(NameText), JStr(TypeText)]

  lemma NameStars()
    ensures StarSegs(NameCol) == [["*"]]
  {
    assert NameCol[1..] == [["fname"]] && NameCol[1..][1..] == [];
    assert StarSegs(NameCol[1..][1..]) == [];
    assert StarSegs(NameCol[1..]) == [];
    assert [["*"]] + [] == [["*"]];
  }

  lemma TypeStars()
    ensures StarSegs(TypeCol) == PeopleLoopers
  {
    var t1 := TypeCol[1..];
    var t2 := t1[1..];
    assert t1 == [["address", "*"], ["type"]] && t2 == [["type"]] && t2[1..] == [];
    assert StarSegs(t2[1..]) == [];
    assert StarSegs(t2) == [];
    assert StarSegs(t1) == [["address", "*"]] + [];
    assert [["*"]] + [["address", "*"]] == PeopleLoopers;
  }

  lemma NameRegisters()
    ensures Agrees([], StarSegs(NameCol)) && Merge([], StarSegs(NameCol)) == [["*"]]
  {
    NameStars();
    assert Agrees([], [["*"]]);
    assert [] + [["*"]][0..] == [["*"]];
  }

  lemma TypeRegisters()
    ensures Agrees([["*"]], StarSegs(TypeCol)) && Merge([["*"]], StarSegs(TypeCol)) == PeopleLoopers
  {
    TypeStars();
    assert PeopleLoopers[0] == ["*"];
    assert [["*"]] + PeopleLoopers[1..] == PeopleLoopers;
  }

  lemma NameSegments()
    ensures ColumnSegments(PeopleDef[0].s) == NameCol
  {
    assert PeopleDef[0].s == NameText;
    NameColumn();
  }

  lemma TypeSegments()
    ensures ColumnSegments(PeopleDef[1].s) == TypeCol
  {
    assert PeopleDef[1].s == TypeText;
    TypeColumn();
  }

  /** Compiling two string columns whose segments and merged loopers are
      already known. */
  lemma CompileTwo(cols: seq<Json>, s0: Segments, s1: Segments, l0: seq<Looper>, l1: seq<Looper>)
    requires |cols| == 2 && cols[0].JStr? && cols[1].JStr?
    requires ColumnSegments(cols[0].s) == s0 && ColumnSegments(cols[1].s) == s1
    requires Agrees([], StarSegs(s0)) && Merge([], StarSegs(s0)) == l0
    requires Agrees(l0, StarSegs(s1)) && Merge(l0, StarSegs(s1)) == l1
    ensures Compile(cols) == Ok(Compiled([s0, s1], l1))
  {
    CompileFirst(cols, s0, l0);
    CompileLast(cols, s0, s1, l0, l1);
  }

  lemma CompileFirst(cols: seq<Json>, s0: Segments, l0: seq<Looper>)
    requires |cols| == 2 && cols[0].JStr?
    requires ColumnSegments(cols[0].s) == s0
    requires Agrees([], StarSegs(s0)) && Merge([], StarSegs(s0)) == l0
    ensures Compile(cols) == CompileFrom(cols, 1, Compiled([s0], l0))
  {
    CompileNext(cols, 0, Compiled([], []), s0, l0);
    assert [] + [s0] == [s0];
  }

  lemma CompileLast(cols: seq<Json>, s0: Segments, s1: Segments, l0: seq<Looper>, l1: seq<Looper>)
    requires |cols| == 2 && cols[1].JStr?
    requires ColumnSegments(cols[1].s) == s1
    requires Agrees(l0, StarSegs(s1)) && Merge(l0, StarSegs(s1)) == l1
    ensures CompileFrom(cols, 1, Compiled([s0], l0)) == Ok(Compiled([s0, s1], l1))
  {
    CompileNext(cols, 1, Compiled([s0], l0), s1, l1);
    assert [s0] + [s1] == [s0, s1];
  }

  /** Registering `*.fname` opens the root looper; `*.address.*.type` agrees
      on it and adds the address looper. */
  lemma PeopleCompile()
    ensures Compile(PeopleDef) == Ok(Compiled([NameCol, TypeCol], PeopleLoopers))
  {
    NameSegments();
    TypeSegments();
    NameRegisters();
    TypeRegisters();
    CompileTwo(PeopleDef, NameCol, TypeCol, [["*"]], PeopleLoopers);
  }

  /** The addresses below each person: none for the one without. */
  lemma PeopleChildren()
    ensures Children(Michael, ["address"]) == Ok([Home, Work])
    ensures Children(Lawrence, ["address"]) == Ok([])
    ensures Children(Bill, ["address"]) == Ok([Home])
  {
    assert Lookup(Michael.entries, "address") == Some(JArr([Home, Work]));
    assert Lookup(Lawrence.entries, "address") == None;
    assert Lookup(Bill.entries, "address") == Some(JArr([Home]));
  }

  /** The root iterator enumerates the three people. */
  lemma PeopleRoot()
    ensures Chain(People, [["*"]]) == Stream([[Michael], [Lawrence], [Bill]], None)
  {
    ArrayRoot(People);
    var items := RootStream(People, ["*"]).items;
    assert |items| == 3;
    assert items[0] == [Michael] && items[1] == [Lawrence] && items[2] == [Bill];
    assert items == [[Michael], [Lawrence], [Bill]];
  }

  lemma NestBill()
    ensures Nest([[Bill]], None, ["address"]) == Stream([[Bill, Home]], None)
  {
    var b: Tick := [Bill];
    assert Cur(b) == Bill;
    PeopleChildren();
    assert [b][1..] == [];
    assert Extend(b, [Home])[0] == b + [Home] == [Bill, Home];
    assert Extend(b, [Home]) == [[Bill, Home]];
    assert [[Bill, Home]] + [] == [[Bill, Home]];
  }

  lemma NestLawrence()
    ensures Nest([[Lawrence], [Bill]], None, ["address"]) == Stream([[Bill, Home]], None)
  {
    var l: Tick := [Lawrence];
    var b: Tick := [Bill];
    assert Cur(l) == Lawrence;
    PeopleChildren();
    assert [l, b][1..] == [b];
    NestBill();
    assert Extend(l, []) == [];
    assert [] + [[Bill, Home]] == [[Bill, Home]];
  }

  lemma NestMichael()
    ensures Nest([[Michael], [Lawrence], [Bill]], None, ["address"])
         == Stream([[Michael, Home], [Michael, Work], [Bill, Home]], None)
  {
    var m: Tick := [Michael];
    var l: Tick := [Lawrence];
    var b: Tick := [Bill];
    assert Cur(m) == Michael;
    PeopleChildren();
    assert [m, l, b][1..] == [l, b];
    NestLawrence();
    var ext := Extend(m, [Home, Work]);
    assert ext[0] == m + [Home] == [Michael, Home];
    assert ext[1] == m + [Work] == [Michael, Work];
    assert ext == [[Michael, Home], [Michael, Work]];
    assert ext + [[Bill, Home]] == [[Michael, Home], [Michael, Work], [Bill, Home]];
  }

  lemma PeopleNest()
    ensures Nest([[Michael], [Lawrence], [Bill]], None, Adjusted(["address", "*"]))
         == Stream([[Michael, Home], [Michael, Work], [Bill, Home]], None)
  {
    assert Adjusted(["address", "*"]) == ["address"];
    NestMichael();
  }

  /** One tick per address, none for the person without one. */
  lemma PeopleTicks()
    ensures Ticks(People, PeopleLoopers) == ([[Michael, Home], [Michael, Work], [Bill, Home]], None)
  {
    PeopleRoot();
    PeopleNest();
    TwoLevelTicks(People, ["*"], ["address", "*"], [[Michael], [Lawrence], [Bill]],
                  Stream([[Michael, Home], [Michael, Work], [Bill, Home]], None));
  }

  /** Both columns of one tick: the person's first name and the address
      type. Each column finds its own looper under either lookup rule, since
      the two loopers differ. */
  lemma PeopleCells(rule: BaseRule, person: Json, addr: Json, name: string, kind: string)
    requires person.JObj? && Lookup(person.entries, "fname") == Some(JStr(name))
    requires addr.JObj? && Lookup(addr.entries, "type") == Some(JStr(kind))
    ensures RowOf(rule, People, PeopleLoopers, [NameCol, TypeCol], [person, addr]) == Ok([Def(JStr(name)), Def(JStr(kind))])
  {
    var L := PeopleLoopers;
    var t := [person, addr];
    assert BaseIndex(rule, L, NameCol) == Some(0) by {
      assert Join(["*"], '.') == "*";
    }
    assert BaseIndex(rule, L, TypeCol) == Some(1) by {
      assert Join(["address", "*"], '.') == "address.*" by {
        assert Join(["*"], '.') == "*";
        assert ["address", "*"][1..] == ["*"];
      }
      assert Join(["*"], '.') != "address.*";
    }
    assert Cell(rule, People, L, NameCol, t) == Ok(Def(JStr(name)));
    assert Cell(rule, People, L, TypeCol, t) == Ok(Def(JStr(kind)));
    RowOfCells(rule, People, L, [NameCol, TypeCol], t, [Def(JStr(name)), Def(JStr(kind))]);
  }

  const MichaelHome: seq<Value> := [Def(JStr("Michael")), Def(JStr("home"))]
  const MichaelWork: seq<Value> := [Def(JStr("Michael")), Def(JStr("work"))]
  const BillHome: seq<Value> := [Def(JStr("Bill")), Def(JStr("home"))]

  lemma PeopleAssemble(rule: BaseRule)
    ensures AssembleRows(rule, People, PeopleLoopers, [NameCol, TypeCol],
                         [[Michael, Home], [Michael, Work], [Bill, Home]], None)
         == Ok([MichaelHome, MichaelWork, BillHome])
  {
    var L := PeopleLoopers;
    var splits := [NameCol, TypeCol];
    var t1 := [Michael, Home];
    var t2 := [Michael, Work];
    var t3 := [Bill, Home];
    var r1 := MichaelHome;
    var r2 := MichaelWork;
    var r3 := BillHome;
    assert RowOf(rule, People, L, splits, t1) == Ok(r1) by {
      assert Lookup(Michael.entries, "fname") == Some(JStr("Michael"));
      assert Lookup(Home.entries, "type") == Some(JStr("home"));
      PeopleCells(rule, Michael, Home, "Michael", "home");
    }
    assert RowOf(rule, People, L, splits, t2) == Ok(r2) by {
      assert Lookup(Michael.entries, "fname") == Some(JStr("Michael"));
      assert Lookup(Work.entries, "type") == Some(JStr("work"));
      PeopleCells(rule, Michael, Work, "Michael", "work");
    }
    assert RowOf(rule, People, L, splits, t3) == Ok(r3) by {
      assert Lookup(Bill.entries, "fname") == Some(JStr("Bill"));
      assert Lookup(Home.entries, "type") == Some(JStr("home"));
      PeopleCells(rule, Bill, Home, "Bill", "home");
    }
    AssembleOfRows(rule, People, L, splits, [t1, t2, t3], [r1, r2, r3]);
  }

  /** The array-root test, reduced: one row per address, none for the
      person without one, under both lookup rules. */
  lemma ArrayRootRows(rule: BaseRule)
    ensures Make2dWith(rule, JArr(PeopleDef), People) == Ok(Rows([MichaelHome, MichaelWork, BillHome]))
  {
    PeopleCompile();
    PeopleTicks();
    PeopleAssemble(rule);
    ArrayTable(rule, PeopleDef, People, Compiled([NameCol, TypeCol], PeopleLoopers),
               [[Michael, Home], [Michael, Work], [Bill, Home]], [MichaelHome, MichaelWork, BillHome]);
  }

  /** A definition object with an own `constructor` key fails `isObject`,
      so `make2d` rejects it whatever the document. */
  lemma ConstructorKeyRejected(doc: Json)
    ensures Make2dAsWritten(JObj([("constructor", JStr("a"))]), doc) == Err(BadDefinition)
    ensures Make2d(JObj([("constructor", JStr("a"))]), doc) == Err(BadDefinition)
  {
    assert Lookup([("constructor", JStr("a"))], "constructor").Some?;
  }
}

=== FILE: flatten.dfy ===
/** `make2d`: definition handling, looper registration over all columns, row
    assembly over the iterator chain, and output shaping. */
module Flatten {
  import opened Wrappers
  import opened Json
  import opened Strings
  import opened Paths
  import opened Resolve
  import opened Registry
  import opened Iterate

  /** The segments of one column: never empty, since splitting on `.` always
      gives at least one token. */
  type Segments = s: seq<Path> | |s| > 0 witness [[]]

  /** `splitStar(column)`. */
  function ColumnSegments(column: string): Segments {
    SplitStar(SplitOn(column, '.'))
  }

  /** The segments of a column are well segmented, concatenate back to its
      `.`-split tokens, and hold no `.` in any token. */
  lemma ColumnSegmentsShape(column: string)
    ensures var segs := ColumnSegments(column);
      && WellSegmented(segs)
      && Concat(segs) == SplitOn(column, '.')
      && forall k, j :: 0 <= k < |segs| && 0 <= j < |segs[k]| ==> '.' !in segs[k][j]
  {
    var segs := ColumnSegments(column);
    SplitStarShape(SplitOn(column, '.'));
    forall k, j | 0 <= k < |segs| && 0 <= j < |segs[k]|
      ensures '.' !in segs[k][j]
    {
      ConcatMembers(segs, k, j);
    }
  }

  /** `isObject(definition)`: a truthy value whose `constructor` is
      `Object`. A parsed JSON object inherits that constructor unless it has
      an own `constructor` property, and no JSON value is the `Object`
      function; so the test holds exactly for objects without that key. */
  predicate IsPlainObject(def: Json) {
    def.JObj? && Lookup(def.entries, "constructor").None?
  }

  /** The column list of a definition: an array as it is, a plain object's
      values in key order, a string split on `|` with each piece trimmed.
      Anything else, an object with an own `constructor` key included, is
      rejected. */
  function DefinitionColumns(def: Json): (r: Result<seq<Json>>)
    ensures r.Err? <==> !(def.JArr? || IsPlainObject(def) || def.JStr?)
    ensures r.Err? ==> r.error == BadDefinition
    ensures def.JArr? ==> r == Ok(def.elems)
    ensures IsPlainObject(def) ==> r == Ok(Values(def.entries))
  {
    match def
    case JArr(cols) => Ok(cols)
    case JObj(es) => if Lookup(es, "constructor").Some? then Err(BadDefinition) else Ok(Values(es))
    case JStr(s) =>
      var parts := SplitOn(s, '|');
      Ok(seq(|parts|, i requires 0 <= i < |parts| => JStr(Trim(parts[i]))))
    case _ => Err(BadDefinition)
  }

  /** The per-column segments (`columnSplits`) and the looper list. */
  datatype Compiled = Compiled(splits: seq<Segments>, loopers: seq<Looper>)

  /** The column loop of `make2d` from column `k` on: split each column and
      register its `*`-segments. A column that is not a string fails as
      `column.split` would. */
  function CompileFrom(cols: seq<Json>, k: nat, acc: Compiled): (r: Result<Compiled>)
    requires k <= |cols| && |acc.splits| == k
    ensures r.Ok? ==> |r.value.splits| == |cols|
    ensures r.Err? ==> r.error == ColumnNotString || r.error.LoopMismatch?
    decreases |cols| - k
  {
    if k == |cols| then Ok(acc)
    else
      match cols[k]
      case JStr(s) =>
        var segs := ColumnSegments(s);
        (match Register(acc.loopers, StarSegs(segs))
         case Err(e) => Err(e)
         case Ok(loopers) => CompileFrom(cols, k + 1, Compiled(acc.splits + [segs], loopers)))
      case _ => Err(ColumnNotString)
  }

  function Compile(cols: seq<Json>): (r: Result<Compiled>)
    ensures r.Ok? ==> |r.value.splits| == |cols|
  {
    CompileFrom(cols, 0, Compiled([], []))
  }

  predicate AllStrings(cols: seq<Json>) {
    forall c :: 0 <= c < |cols| ==> cols[c].JStr?
  }

  /** The segments of every column of an all-string column list. */
  function SegsOf(cols: seq<Json>): (r: seq<Segments>)
    requires AllStrings(cols)
    ensures |r| == |cols|
    ensures forall c :: 0 <= c < |cols| ==> r[c] == ColumnSegments(cols[c].s)
  {
    seq(|cols|, c requires 0 <= c < |cols| => ColumnSegments(cols[c].s))
  }

  /** Every column is well segmented and no token holds a `.`. */
  ghost predicate WellFormed(splits: seq<Segments>) {
    forall c :: 0 <= c < |splits| ==>
      && WellSegmented(splits[c])
      && forall k, j :: 0 <= k < |splits[c]| && 0 <= j < |splits[c][k]| ==> '.' !in splits[c][k][j]
  }

  /** The largest number of `*`-segments of any column. */
  function MaxDepth(splits: seq<Segments>): (d: nat)
    ensures forall c :: 0 <= c < |splits| ==> |StarSegs(splits[c])| <= d
    ensures |splits| > 0 ==> exists c :: 0 <= c < |splits| && |StarSegs(splits[c])| == d
    ensures |splits| == 0 ==> d == 0
    decreases |splits|
  {
    if |splits| == 0 then 0
    else
      var front := splits[..|splits| - 1];
      var here := |StarSegs(splits[|splits| - 1])|;
      var d := MaxDepth(front);
      assert forall c :: 0 <= c < |front| ==> front[c] == splits[c];
      if here >= d then here else d
  }

  /** What the registry promises: the `i`-th `*`-segment of every column is
      looper `i`, there are as many loopers as the longest column has
      `*`-segments, and looper tokens hold no `.`. */
  ghost predicate Registered(splits: seq<Segments>, loopers: seq<Looper>) {
    && Covers(splits, loopers)
    && |loopers| == MaxDepth(splits)
    && (forall i, j :: 0 <= i < |loopers| && 0 <= j < |loopers[i]| ==> '.' !in loopers[i][j])
  }

  /** Every `*`-segment of every column is the looper at its depth. */
  ghost predicate Covers(splits: seq<Segments>, loopers: seq<Looper>) {
    forall c, i :: 0 <= c < |splits| && 0 <= i < |StarSegs(splits[c])| ==>
      i < |loopers| && loopers[i] == StarSegs(splits[c])[i]
  }

  /** No two columns put different segments at the same iteration depth. */
  ghost predicate Consistent(splits: seq<Segments>) {
    forall c1, c2, i ::
      (0 <= c1 < |splits| && 0 <= c2 < |splits| && 0 <= i < |StarSegs(splits[c1])| && i < |StarSegs(splits[c2])|) ==>
      StarSegs(splits[c1])[i] == StarSegs(splits[c2])[i]
  }

  ghost predicate Valid(comp: Compiled) {
    WellFormed(comp.splits) && Registered(comp.splits, comp.loopers)
  }

  /** Every `*`-segment of a well-segmented list is one of its segments. */
  lemma StarSegsMembers(segs: Segments, i: nat)
    requires WellSegmented(segs) && i < |StarSegs(segs)|
    ensures i < |segs| && StarSegs(segs)[i] == segs[i]
  {
    StarSegsOfWellSegmented(segs);
  }

  /** Registering one more column succeeds exactly when the extended column
      list stays consistent. */
  lemma RegisterConsistent(splits: seq<Segments>, loopers: seq<Looper>, segs: Segments)
    requires Registered(splits, loopers) && Consistent(splits)
    ensures Agrees(loopers, StarSegs(segs)) <==> Consistent(splits + [segs])
  {
    if Agrees(loopers, StarSegs(segs)) {
      AgreeingStaysConsistent(splits, loopers, segs);
    } else {
      DisagreeingIsInconsistent(splits, loopers, segs);
    }
  }

  lemma AgreeingStaysConsistent(splits: seq<Segments>, loopers: seq<Looper>, segs: Segments)
    requires Registered(splits, loopers) && Consistent(splits)
    requires Agrees(loopers, StarSegs(segs))
    ensures Consistent(splits + [segs])
  {
    var all := splits + [segs];
    forall c1, c2, i | 0 <= c1 < |all| && 0 <= c2 < |all|
      && 0 <= i < |StarSegs(all[c1])| && i < |StarSegs(all[c2])|
      ensures StarSegs(all[c1])[i] == StarSegs(all[c2])[i]
    {
      AtDepth(splits, loopers, segs, c1, i);
      AtDepth(splits, loopers, segs, c2, i);
    }
  }

  /** The `i`-th `*`-segment of a column is looper `i` for a registered
      column, and the new column's own otherwise. */
  lemma AtDepth(splits: seq<Segments>, loopers: seq<Looper>, segs: Segments, c: nat, i: nat)
    requires Registered(splits, loopers)
    requires c <= |splits| && i < |StarSegs((splits + [segs])[c])|
    ensures c < |splits| ==> i < |loopers| && StarSegs((splits + [segs])[c])[i] == loopers[i]
    ensures c == |splits| ==> StarSegs((splits + [segs])[c]) == StarSegs(segs)
  {
    if c < |splits| {
      assert (splits + [segs])[c] == splits[c];
      RegisteredAt(splits, loopers, c, i);
    } else {
      assert (splits + [segs])[c] == segs;
    }
  }

  lemma DisagreeingIsInconsistent(splits: seq<Segments>, loopers: seq<Looper>, segs: Segments)
    requires Registered(splits, loopers)
    requires !Agrees(loopers, StarSegs(segs))
    ensures !Consistent(splits + [segs])
  {
    var S := StarSegs(segs);
    var all := splits + [segs];
    var j :| 0 <= j < |S| && j < |loopers| && S[j] != loopers[j];
    var c :| 0 <= c < |splits| && |StarSegs(splits[c])| == MaxDepth(splits);
    assert loopers[j] == StarSegs(splits[c])[j];
    assert all[c] == splits[c];
    assert all[|splits|] == segs;
  }

  lemma RegisteredAt(splits: seq<Segments>, loopers: seq<Looper>, c: nat, i: nat)
    requires Registered(splits, loopers)
    requires c < |splits| && i < |StarSegs(splits[c])|
    ensures i < |loopers| && loopers[i] == StarSegs(splits[c])[i]
  {
  }

  /** Registering one more column that agrees with the loopers keeps the
      registry invariant. */
  lemma RegisterKeepsInvariant(splits: seq<Segments>, loopers: seq<Looper>, segs: Segments)
    requires Registered(splits, loopers)
    requires WellSegmented(segs)
    requires forall k, j :: 0 <= k < |segs| && 0 <= j < |segs[k]| ==> '.' !in segs[k][j]
    requires Agrees(loopers, StarSegs(segs))
    ensures Registered(splits + [segs], Merge(loopers, StarSegs(segs)))
  {
    MergeCovers(splits, loopers, segs);
    MergeDepth(splits, loopers, segs);
    MergeDotFree(loopers, segs);
  }

  lemma MergeCovers(splits: seq<Segments>, loopers: seq<Looper>, segs: Segments)
    requires Registered(splits, loopers)
    requires Agrees(loopers, StarSegs(segs))
    ensures Covers(splits + [segs], Merge(loopers, StarSegs(segs)))
  {
    var all := splits + [segs];
    var M := Merge(loopers, StarSegs(segs));
    forall c, i | 0 <= c < |all| && 0 <= i < |StarSegs(all[c])|
      ensures i < |M| && M[i] == StarSegs(all[c])[i]
    {
      CoverAt(splits, loopers, segs, all, c, i);
    }
  }

  lemma CoverAt(splits: seq<Segments>, loopers: seq<Looper>, segs: Segments, all: seq<Segments>, c: nat, i: nat)
    requires Registered(splits, loopers)
    requires Agrees(loopers, StarSegs(segs)) && all == splits + [segs]
    requires c < |all| && i < |StarSegs(all[c])|
    ensures i < |Merge(loopers, StarSegs(segs))| && Merge(loopers, StarSegs(segs))[i] == StarSegs(all[c])[i]
  {
    AtDepth(splits, loopers, segs, c, i);
    MergeAt(loopers, StarSegs(segs), i);
  }

  lemma MergeDepth(splits: seq<Segments>, loopers: seq<Looper>, segs: Segments)
    requires Registered(splits, loopers)
    ensures |Merge(loopers, StarSegs(segs))| == MaxDepth(splits + [segs])
  {
    var all := splits + [segs];
    assert all[..|all| - 1] == splits;
    assert all[|all| - 1] == segs;
  }

  lemma MergeDotFree(loopers: seq<Looper>, segs: Segments)
    requires forall i, j :: 0 <= i < |loopers| && 0 <= j < |loopers[i]| ==> '.' !in loopers[i][j]
    requires WellSegmented(segs)
    requires forall k, j :: 0 <= k < |segs| && 0 <= j < |segs[k]| ==> '.' !in segs[k][j]
    ensures var M := Merge(loopers, StarSegs(segs));
      forall i, j :: 0 <= i < |M| && 0 <= j < |M[i]| ==> '.' !in M[i][j]
  {
    var M := Merge(loopers, StarSegs(segs));
    forall i, j | 0 <= i < |M| && 0 <= j < |M[i]|
      ensures '.' !in M[i][j]
    {
      if i >= |loopers| {
        StarSegsMembers(segs, i);
      }
    }
  }

  /** The column loop from column `k` on succeeds only on string columns,
      and then records each column's segments. */
  lemma {:induction false} CompileFromColumns(cols: seq<Json>, k: nat, acc: Compiled)
    requires k <= |cols| && |acc.splits| == k
    requires Recorded(cols, k, acc.splits)
    ensures var r := CompileFrom(cols, k, acc);
      r.Ok? ==> AllStrings(cols) && r.value.splits == SegsOf(cols)
    decreases |cols| - k
  {
    if k == |cols| {
      RecordedAll(cols, acc.splits);
    } else if cols[k].JStr? {
      var segs := ColumnSegments(cols[k].s);
      var reg := Register(acc.loopers, StarSegs(segs));
      if reg.Ok? {
        var next := Compiled(acc.splits + [segs], reg.value);
        CompileUnfold(cols, k, acc);
        RecordedSnoc(cols, k, acc.splits);
        CompileFromColumns(cols, k + 1, next);
      }
    }
  }

  /** The first `k` columns are strings whose segments are recorded in
      `splits`. */
  ghost predicate Recorded(cols: seq<Json>, k: nat, splits: seq<Segments>) {
    forall c :: 0 <= c < k ==> c < |cols| && cols[c].JStr? && c < |splits| && splits[c] == ColumnSegments(cols[c].s)
  }

  lemma RecordedSnoc(cols: seq<Json>, k: nat, splits: seq<Segments>)
    requires k < |cols| && |splits| == k && cols[k].JStr? && Recorded(cols, k, splits)
    ensures Recorded(cols, k + 1, splits + [ColumnSegments(cols[k].s)])
  {
    var next := splits + [ColumnSegments(cols[k].s)];
    forall c | 0 <= c < k + 1
      ensures c < |cols| && cols[c].JStr? && c < |next| && next[c] == ColumnSegments(cols[c].s)
    {
      if c < k {
        assert next[c] == splits[c];
      }
    }
  }

  lemma RecordedAll(cols: seq<Json>, splits: seq<Segments>)
    requires |splits| == |cols| && Recorded(cols, |cols|, splits)
    ensures AllStrings(cols) && splits == SegsOf(cols)
  {
    assert AllStrings(cols);
    var sc := SegsOf(cols);
    assert forall c :: 0 <= c < |cols| ==> splits[c] == sc[c];
  }

  lemma CompileUnfold(cols: seq<Json>, k: nat, acc: Compiled)
    requires k < |cols| && |acc.splits| == k && cols[k].JStr?
    requires Register(acc.loopers, StarSegs(ColumnSegments(cols[k].s))).Ok?
    ensures var segs := ColumnSegments(cols[k].s);
      CompileFrom(cols, k, acc)
      == CompileFrom(cols, k + 1, Compiled(acc.splits + [segs], Register(acc.loopers, StarSegs(segs)).value))
  {
  }

  /** The column loop from column `k` on keeps the registry invariant; on
      all-string columns it succeeds exactly when the columns are consistent. */
  lemma {:induction false} CompileFromSpec(cols: seq<Json>, k: nat, acc: Compiled)
    requires k <= |cols| && |acc.splits| == k
    requires forall c :: 0 <= c < k ==> cols[c].JStr? && acc.splits[c] == ColumnSegments(cols[c].s)
    requires Valid(acc) && Consistent(acc.splits)
    ensures var r := CompileFrom(cols, k, acc);
      && (r.Ok? ==> Valid(r.value))
      && (AllStrings(cols) ==> (r.Ok? <==> Consistent(SegsOf(cols))))
    decreases |cols| - k
  {
    if k == |cols| {
      if AllStrings(cols) {
        PrefixIsAll(cols, acc.splits);
      }
    } else if cols[k].JStr? {
      var segs := ColumnSegments(cols[k].s);
      if Agrees(acc.loopers, StarSegs(segs)) {
        var next := Compiled(acc.splits + [segs], Merge(acc.loopers, StarSegs(segs)));
        CompileAdvance(cols, k, acc);
        CompileStep(cols, k, acc);
        CompileFromSpec(cols, k + 1, next);
      } else {
        CompileMismatch(cols, k, acc);
      }
    }
  }

  /** A column whose `*`-segments agree with the loopers moves the loop on
      to the next column with the merged loopers. */
  lemma CompileAdvance(cols: seq<Json>, k: nat, acc: Compiled)
    requires k < |cols| && |acc.splits| == k && cols[k].JStr?
    requires Agrees(acc.loopers, StarSegs(ColumnSegments(cols[k].s)))
    ensures var segs := ColumnSegments(cols[k].s);
      CompileFrom(cols, k, acc)
      == CompileFrom(cols, k + 1, Compiled(acc.splits + [segs], Merge(acc.loopers, StarSegs(segs))))
  {
  }

  /** A column whose `*`-segments disagree with the loopers fails the loop,
      and makes the whole column list inconsistent. */
  lemma CompileMismatch(cols: seq<Json>, k: nat, acc: Compiled)
    requires k < |cols| && |acc.splits| == k && cols[k].JStr?
    requires forall c :: 0 <= c < k ==> cols[c].JStr? && acc.splits[c] == ColumnSegments(cols[c].s)
    requires Valid(acc) && Consistent(acc.splits)
    requires !Agrees(acc.loopers, StarSegs(ColumnSegments(cols[k].s)))
    ensures CompileFrom(cols, k, acc).Err?
    ensures AllStrings(cols) ==> !Consistent(SegsOf(cols))
  {
    var segs := ColumnSegments(cols[k].s);
    assert Register(acc.loopers, StarSegs(segs)).Err?;
    if AllStrings(cols) {
      DisagreeingIsInconsistent(acc.splits, acc.loopers, segs);
      PrefixInconsistent(cols, k, acc.splits);
    }
  }

  /** Segments recorded for every column are the segments of all columns. */
  lemma PrefixIsAll(cols: seq<Json>, splits: seq<Segments>)
    requires AllStrings(cols) && |splits| == |cols|
    requires forall c :: 0 <= c < |cols| ==> splits[c] == ColumnSegments(cols[c].s)
    ensures splits == SegsOf(cols)
  {
  }

  /** A mismatch among the first `k + 1` columns makes the whole column list
      inconsistent. */
  lemma PrefixInconsistent(cols: seq<Json>, k: nat, splits: seq<Segments>)
    requires AllStrings(cols) && k < |cols| && |splits| == k
    requires forall c :: 0 <= c < k ==> splits[c] == ColumnSegments(cols[c].s)
    requires !Consistent(splits + [ColumnSegments(cols[k].s)])
    ensures !Consistent(SegsOf(cols))
  {
    var all := splits + [ColumnSegments(cols[k].s)];
    var sc := SegsOf(cols);
    var c1, c2, i :| 0 <= c1 < |all| && 0 <= c2 < |all|
      && 0 <= i < |StarSegs(all[c1])| && i < |StarSegs(all[c2])|
      && StarSegs(all[c1])[i] != StarSegs(all[c2])[i];
    PrefixAt(cols, k, splits, c1);
    PrefixAt(cols, k, splits, c2);
  }

  lemma PrefixAt(cols: seq<Json>, k: nat, splits: seq<Segments>, c: nat)
    requires AllStrings(cols) && k < |cols| && |splits| == k && c <= k
    requires forall c :: 0 <= c < k ==> splits[c] == ColumnSegments(cols[c].s)
    ensures (splits + [ColumnSegments(cols[k].s)])[c] == SegsOf(cols)[c]
  {
    if c < k {
      assert (splits + [ColumnSegments(cols[k].s)])[c] == splits[c];
    }
  }

  /** One successful step of the column loop keeps its invariant. */
  lemma CompileStep(cols: seq<Json>, k: nat, acc: Compiled)
    requires k < |cols| && |acc.splits| == k && cols[k].JStr?
    requires forall c :: 0 <= c < k ==> cols[c].JStr? && acc.splits[c] == ColumnSegments(cols[c].s)
    requires Valid(acc) && Consistent(acc.splits)
    requires Agrees(acc.loopers, StarSegs(ColumnSegments(cols[k].s)))
    ensures var segs := ColumnSegments(cols[k].s);
      var next := Compiled(acc.splits + [segs], Merge(acc.loopers, StarSegs(segs)));
      && Valid(next) && Consistent(next.splits)
      && forall c :: 0 <= c < k + 1 ==> cols[c].JStr? && next.splits[c] == ColumnSegments(cols[c].s)
  {
    var segs := ColumnSegments(cols[k].s);
    var all := acc.splits + [segs];
    RegisterValid(acc, cols[k].s);
    assert forall c :: 0 <= c < k ==> all[c] == acc.splits[c];
  }

  /** Registering one more column keeps the compiled state valid. */
  lemma RegisterValid(acc: Compiled, column: string)
    requires Valid(acc) && Consistent(acc.splits)
    requires Agrees(acc.loopers, StarSegs(ColumnSegments(column)))
    ensures var segs := ColumnSegments(column);
      var next := Compiled(acc.splits + [segs], Merge(acc.loopers, StarSegs(segs)));
      Valid(next) && Consistent(next.splits)
  {
    var segs := ColumnSegments(column);
    RegisterConsistent(acc.splits, acc.loopers, segs);
    ColumnSegmentsShape(column);
    RegisterKeepsInvariant(acc.splits, acc.loopers, segs);
    WellFormedSnoc(acc.splits, segs);
  }

  /** Appending a well-formed column keeps a column list well formed. */
  lemma WellFormedSnoc(splits: seq<Segments>, segs: Segments)
    requires WellFormed(splits) && WellSegmented(segs)
    requires forall k, j :: 0 <= k < |segs| && 0 <= j < |segs[k]| ==> '.' !in segs[k][j]
    ensures WellFormed(splits + [segs])
  {
    var all := splits + [segs];
    forall c | 0 <= c < |all|
      ensures WellSegmented(all[c])
      ensures forall k, j :: 0 <= k < |all[c]| && 0 <= j < |all[c][k]| ==> '.' !in all[c][k][j]
    {
      if c < |splits| {
        assert all[c] == splits[c];
      } else {
        assert all[c] == segs;
      }
    }
  }

    /** The registry over a whole column list: it succeeds exactly when every
      column is a string and no two columns disagree at one depth, and then
      lists each depth's segment once. */
  lemma CompileSpec(cols: seq<Json>)
    ensures Compile(cols).Ok? ==> AllStrings(cols) && Compile(cols).value.splits == SegsOf(cols) && Valid(Compile(cols).value)
    ensures AllStrings(cols) ==> (Compile(cols).Ok? <==> Consistent(SegsOf(cols)))
    ensures AllStrings(cols) && Compile(cols).Err? ==> Compile(cols).error.LoopMismatch?
    ensures Compile(cols).Err? ==> exists j :: 0 <= j < |cols| && FailsAt(cols, j, Compile(cols).error)
  {
    CompileFromColumns(cols, 0, Compiled([], []));
    CompileFromSpec(cols, 0, Compiled([], []));
    if AllStrings(cols) && Compile(cols).Err? {
      NoColumnNotString(cols, 0, Compiled([], []));
    }
    if Compile(cols).Err? {
      CompileFromFailsAt(cols, 0, Compiled([], []));
    }
  }

  /** The column loop fails at column `j` with error `e`: every earlier
      column is a string and they agree at every depth, and column `j` is
      either not a string (`column.split` fails) or the first string column
      whose `*`-segments disagree with them ("loops don't match"). */
  ghost predicate FailsAt(cols: seq<Json>, j: nat, e: Error)
    requires j < |cols|
  {
    && AllStrings(cols[..j]) && Consistent(SegsOf(cols[..j]))
    && (cols[j].JStr? ==> AllStrings(cols[..j + 1]) && !Consistent(SegsOf(cols[..j + 1])) && e.LoopMismatch?)
    && (!cols[j].JStr? ==> e == ColumnNotString)
  }

  /** A failing column loop from column `k` on fails at the first offending
      column at or after `k`. */
  lemma {:induction false} CompileFromFailsAt(cols: seq<Json>, k: nat, acc: Compiled)
    requires k <= |cols| && |acc.splits| == k
    requires forall c :: 0 <= c < k ==> cols[c].JStr? && acc.splits[c] == ColumnSegments(cols[c].s)
    requires Valid(acc) && Consistent(acc.splits)
    requires CompileFrom(cols, k, acc).Err?
    ensures exists j :: k <= j < |cols| && FailsAt(cols, j, CompileFrom(cols, k, acc).error)
    decreases |cols| - k
  {
    var e := CompileFrom(cols, k, acc).error;
    PrefixSegs(cols, k, acc.splits);
    if !cols[k].JStr? {
      assert FailsAt(cols, k, e);
    } else {
      var segs := ColumnSegments(cols[k].s);
      if Agrees(acc.loopers, StarSegs(segs)) {
        var next := Compiled(acc.splits + [segs], Merge(acc.loopers, StarSegs(segs)));
        CompileAdvance(cols, k, acc);
        CompileStep(cols, k, acc);
        CompileFromFailsAt(cols, k + 1, next);
      } else {
        MismatchFailsAt(cols, k, acc);
      }
    }
  }

  /** A string column that disagrees with the loopers of the consistent
      columns before it is where the loop fails. */
  lemma MismatchFailsAt(cols: seq<Json>, k: nat, acc: Compiled)
    requires k < |cols| && |acc.splits| == k && cols[k].JStr?
    requires forall c :: 0 <= c < k ==> cols[c].JStr? && acc.splits[c] == ColumnSegments(cols[c].s)
    requires Valid(acc) && Consistent(acc.splits)
    requires AllStrings(cols[..k]) && SegsOf(cols[..k]) == acc.splits
    requires !Agrees(acc.loopers, StarSegs(ColumnSegments(cols[k].s)))
    ensures FailsAt(cols, k, CompileFrom(cols, k, acc).error)
  {
    var reg := Register(acc.loopers, StarSegs(ColumnSegments(cols[k].s)));
    assert CompileFrom(cols, k, acc) == Err(reg.error);
    MismatchInconsistent(cols, k, acc);
  }

  /** The columns up to a disagreeing string column are inconsistent. */
  lemma MismatchInconsistent(cols: seq<Json>, k: nat, acc: Compiled)
    requires k < |cols| && |acc.splits| == k && cols[k].JStr?
    requires forall c :: 0 <= c < k ==> cols[c].JStr? && acc.splits[c] == ColumnSegments(cols[c].s)
    requires Registered(acc.splits, acc.loopers)
    requires !Agrees(acc.loopers, StarSegs(ColumnSegments(cols[k].s)))
    ensures AllStrings(cols[..k + 1]) && !Consistent(SegsOf(cols[..k + 1]))
  {
    var segs := ColumnSegments(cols[k].s);
    var all := acc.splits + [segs];
    forall c | 0 <= c < k + 1
      ensures cols[c].JStr? && all[c] == ColumnSegments(cols[c].s)
    {
      if c < k {
        assert all[c] == acc.splits[c];
      } else {
        assert all[c] == segs;
      }
    }
    PrefixSegs(cols, k + 1, all);
    DisagreeingIsInconsistent(acc.splits, acc.loopers, segs);
  }

  /** Recorded segments of the first `k` columns are the segments of that
      prefix. */
  lemma PrefixSegs(cols: seq<Json>, k: nat, splits: seq<Segments>)
    requires k <= |cols| && |splits| == k
    requires forall c :: 0 <= c < k ==> cols[c].JStr? && splits[c] == ColumnSegments(cols[c].s)
    ensures AllStrings(cols[..k]) && SegsOf(cols[..k]) == splits
  {
    var front := cols[..k];
    assert forall c :: 0 <= c < k ==> front[c] == cols[c];
    PrefixIsAll(front, splits);
  }

  /** On all-string columns the column loop can only fail by a mismatch. */
  lemma {:induction false} NoColumnNotString(cols: seq<Json>, k: nat, acc: Compiled)
    requires k <= |cols| && |acc.splits| == k && AllStrings(cols)
    requires CompileFrom(cols, k, acc).Err?
    ensures CompileFrom(cols, k, acc).error.LoopMismatch?
    decreases |cols| - k
  {
    var segs := ColumnSegments(cols[k].s);
    var reg := Register(acc.loopers, StarSegs(segs));
    if reg.Ok? {
      NoColumnNotString(cols, k + 1, Compiled(acc.splits + [segs], reg.value));
    }
  }

  /** `iterators.find(it => it.path == path)`: the first looper, from
      position `j` on, whose `.`-joined tokens are `path`. */
  function FindByPath(loopers: seq<Looper>, path: string, j: nat): (r: Option<nat>)
    requires j <= |loopers|
    ensures r.Some? ==> j <= r.value < |loopers| && Join(loopers[r.value], '.') == path
    ensures r.Some? ==> forall i :: j <= i < r.value ==> Join(loopers[i], '.') != path
    ensures r.None? ==> forall i :: j <= i < |loopers| ==> Join(loopers[i], '.') != path
    decreases |loopers| - j
  {
    if j == |loopers| then None
    else if Join(loopers[j], '.') == path then Some(j)
    else FindByPath(loopers, path, j + 1)
  }

  /** Which iterator a column with more than one segment is resolved
      against: as written, the first whose joined path equals the joined
      second-to-last segment; as intended, the one at the depth of that
      segment among the column's own `*`-segments. */
  datatype BaseRule = FirstPathMatch | OwnDepth

  function BaseIndex(rule: BaseRule, loopers: seq<Looper>, segs: Segments): Option<nat>
    requires |segs| > 1
  {
    match rule
    case FirstPathMatch => FindByPath(loopers, Join(segs[|segs| - 2], '.'), 0)
    case OwnDepth => Some(|segs| - 2)
  }

  /** The lookup always finds a looper, and that looper is the column's own
      second-to-last segment. */
  lemma LookupFound(rule: BaseRule, comp: Compiled, c: nat)
    requires Valid(comp) && c < |comp.splits| && |comp.splits[c]| > 1
    ensures var segs := comp.splits[c];
      && BaseIndex(rule, comp.loopers, segs).Some?
      && BaseIndex(rule, comp.loopers, segs).value < |comp.loopers|
      && comp.loopers[BaseIndex(rule, comp.loopers, segs).value] == segs[|segs| - 2]
  {
    var segs := comp.splits[c];
    var L := comp.loopers;
    var m := |segs|;
    StarSegsOfWellSegmented(segs);
    assert m - 2 < |StarSegs(segs)| && StarSegs(segs)[m - 2] == segs[m - 2];
    assert m - 2 < |L| && L[m - 2] == segs[m - 2];
    if rule.FirstPathMatch? {
      var path := Join(segs[m - 2], '.');
      var r := FindByPath(L, path, 0);
      assert r.Some?;
      JoinInjective(L[r.value], segs[m - 2], '.');
    }
  }

  /** The value of one column at one tick: its last segment resolved against
      the current element of its base iterator, or against the document root
      for a column with a single segment. */
  function Cell(rule: BaseRule, doc: Json, loopers: seq<Looper>, segs: Segments, t: seq<Json>): (r: Result<Value>)
    ensures r.Err? ==> r.error == MissingLooper || r.error.UndefinedStep? || r.error.NotAnObject?
  {
    var last := segs[|segs| - 1];
    if |segs| > 1 then
      match BaseIndex(rule, loopers, segs)
      case None => Err(MissingLooper)
      case Some(k) => if k < |t| then GetValue(last, Def(t[k])) else Err(MissingLooper)
    else GetValue(last, Def(doc))
  }

  /** Which element a cell reads: the document root for a single segment;
      as written, the current element of the first iterator whose path is
      the column's second-to-last segment; as intended, the current element
      at the depth of that segment. A missing iterator fails the cell. */
  lemma CellBase(rule: BaseRule, doc: Json, loopers: seq<Looper>, segs: Segments, t: seq<Json>)
    ensures var r := Cell(rule, doc, loopers, segs, t);
      && (|segs| == 1 ==> r == GetValue(segs[0], Def(doc)))
      && (|segs| > 1 && rule == FirstPathMatch && r != Err(MissingLooper) ==>
            var path := Join(segs[|segs| - 2], '.');
            exists k :: 0 <= k < |t| && k < |loopers| && Join(loopers[k], '.') == path
                      && (forall i :: 0 <= i < k ==> Join(loopers[i], '.') != path)
                      && r == GetValue(segs[|segs| - 1], Def(t[k])))
      && (|segs| > 1 && rule == OwnDepth ==>
            r == if |segs| - 2 < |t| then GetValue(segs[|segs| - 1], Def(t[|segs| - 2])) else Err(MissingLooper))
  {
  }

  /** A column is resolved against the iterator whose looper is the column's
      second-to-last segment, or against the root when it has one segment. */
  lemma CellSpec(rule: BaseRule, doc: Json, comp: Compiled, c: nat, t: seq<Json>)
    requires Valid(comp) && c < |comp.splits| && |t| == |comp.loopers|
    ensures var segs := comp.splits[c];
      var last := segs[|segs| - 1];
      && (|segs| == 1 ==> Cell(rule, doc, comp.loopers, segs, t) == GetValue(last, Def(doc)))
      && (|segs| > 1 ==> exists k :: 0 <= k < |t| && comp.loopers[k] == segs[|segs| - 2]
                                  && Cell(rule, doc, comp.loopers, segs, t) == GetValue(last, Def(t[k])))
      && (|segs| > 1 && rule == OwnDepth ==>
            Cell(rule, doc, comp.loopers, segs, t) == GetValue(last, Def(t[|segs| - 2])))
  {
    if |comp.splits[c]| > 1 {
      LookupFound(rule, comp, c);
    }
  }

  /** Every column before position `i` has a value at tick `t`. */
  predicate CellsOkBefore(rule: BaseRule, doc: Json, loopers: seq<Looper>, cols: seq<Segments>, t: seq<Json>, i: nat)
    requires i <= |cols|
  {
    forall j :: 0 <= j < i ==> Cell(rule, doc, loopers, cols[j], t).Ok?
  }

  /** One row: every column's cell, in column order; the first failing cell
      fails the row. */
  function RowOf(rule: BaseRule, doc: Json, loopers: seq<Looper>, cols: seq<Segments>, t: seq<Json>): (r: Result<seq<Value>>)
    ensures r.Ok? <==> forall i :: 0 <= i < |cols| ==> Cell(rule, doc, loopers, cols[i], t).Ok?
    ensures r.Ok? ==> |r.value| == |cols|
    ensures r.Ok? ==> forall i :: 0 <= i < |cols| ==> Cell(rule, doc, loopers, cols[i], t) == Ok(r.value[i])
    ensures r.Err? ==> exists i :: 0 <= i < |cols| && Cell(rule, doc, loopers, cols[i], t) == Err(r.error)
                                 && CellsOkBefore(rule, doc, loopers, cols, t, i)
    decreases |cols|
  {
    if |cols| == 0 then Ok([])
    else
      match Cell(rule, doc, loopers, cols[0], t)
      case Err(e) =>
        assert CellsOkBefore(rule, doc, loopers, cols, t, 0);
        Err(e)
      case Ok(v) =>
        var rest := RowOf(rule, doc, loopers, cols[1..], t);
        assert forall i :: 1 <= i < |cols| ==> cols[i] == cols[1..][i - 1];
        match rest
        case Err(e) =>
          assert exists i :: 1 <= i < |cols| && Cell(rule, doc, loopers, cols[i], t) == Err(e)
                             && CellsOkBefore(rule, doc, loopers, cols, t, i) by {
            var i :| 0 <= i < |cols[1..]| && Cell(rule, doc, loopers, cols[1..][i], t) == Err(e)
                     && CellsOkBefore(rule, doc, loopers, cols[1..], t, i);
            assert cols[i + 1] == cols[1..][i];
            assert CellsOkBefore(rule, doc, loopers, cols, t, i + 1);
          }
          Err(e)
        case Ok(vs) =>
          assert forall i :: 1 <= i < |cols| ==> ([v] + vs)[i] == vs[i - 1];
          Ok([v] + vs)
  }

  /** Every tick before position `i` gives a row. */
  predicate RowsOkBefore(rule: BaseRule, doc: Json, loopers: seq<Looper>, cols: seq<Segments>, ticks: seq<seq<Json>>, i: nat)
    requires i <= |ticks|
  {
    forall j :: 0 <= j < i ==> RowOf(rule, doc, loopers, cols, ticks[j]).Ok?
  }

  /** The driving loop: one row per tick of the deepest iterator, in tick
      order. The first failing row fails the call; the chain's own error
      is reported only when every row was built. */
  function AssembleRows(rule: BaseRule, doc: Json, loopers: seq<Looper>, cols: seq<Segments>,
                        ticks: seq<seq<Json>>, failure: Option<Error>): (r: Result<seq<seq<Value>>>)
    ensures r.Ok? <==> failure.None? && forall i :: 0 <= i < |ticks| ==> RowOf(rule, doc, loopers, cols, ticks[i]).Ok?
    ensures r.Ok? ==> |r.value| == |ticks|
    ensures r.Ok? ==> forall i :: 0 <= i < |ticks| ==> RowOf(rule, doc, loopers, cols, ticks[i]) == Ok(r.value[i])
    ensures r.Err? ==>
      || (RowsOkBefore(rule, doc, loopers, cols, ticks, |ticks|) && failure == Some(r.error))
      || exists i :: 0 <= i < |ticks| && RowOf(rule, doc, loopers, cols, ticks[i]) == Err(r.error)
                   && RowsOkBefore(rule, doc, loopers, cols, ticks, i)
    decreases |ticks|
  {
    if |ticks| == 0 then
      if failure.Some? then Err(failure.value) else Ok([])
    else
      match RowOf(rule, doc, loopers, cols, ticks[0])
      case Err(e) =>
        assert RowsOkBefore(rule, doc, loopers, cols, ticks, 0);
        Err(e)
      case Ok(row) =>
        var rest := AssembleRows(rule, doc, loopers, cols, ticks[1..], failure);
        assert forall i :: 1 <= i < |ticks| ==> ticks[i] == ticks[1..][i - 1];
        match rest
        case Err(e) =>
          RestFailure(rule, doc, loopers, cols, ticks, failure, e);
          Err(e)
        case Ok(rows) =>
          assert forall i :: 1 <= i < |ticks| ==> ([row] + rows)[i] == rows[i - 1];
          Ok([row] + rows)
  }

  /** The first failure after a first row that was built, seen from the
      whole tick list. */
  lemma RestFailure(rule: BaseRule, doc: Json, loopers: seq<Looper>, cols: seq<Segments>,
                    ticks: seq<seq<Json>>, failure: Option<Error>, e: Error)
    requires |ticks| > 0 && RowOf(rule, doc, loopers, cols, ticks[0]).Ok?
    requires || (RowsOkBefore(rule, doc, loopers, cols, ticks[1..], |ticks[1..]|) && failure == Some(e))
             || exists i :: 0 <= i < |ticks[1..]| && RowOf(rule, doc, loopers, cols, ticks[1..][i]) == Err(e)
                          && RowsOkBefore(rule, doc, loopers, cols, ticks[1..], i)
    ensures || (RowsOkBefore(rule, doc, loopers, cols, ticks, |ticks|) && failure == Some(e))
            || exists i :: 0 <= i < |ticks| && RowOf(rule, doc, loopers, cols, ticks[i]) == Err(e)
                         && RowsOkBefore(rule, doc, loopers, cols, ticks, i)
  {
    if RowsOkBefore(rule, doc, loopers, cols, ticks[1..], |ticks[1..]|) && failure == Some(e) {
      ShiftOk(rule, doc, loopers, cols, ticks, |ticks[1..]|);
    } else {
      var i :| 0 <= i < |ticks[1..]| && RowOf(rule, doc, loopers, cols, ticks[1..][i]) == Err(e)
               && RowsOkBefore(rule, doc, loopers, cols, ticks[1..], i);
      ShiftOk(rule, doc, loopers, cols, ticks, i);
      assert ticks[i + 1] == ticks[1..][i];
    }
  }

  /** Rows built for the first `i` ticks after the first, and for the first
      tick, are rows built for the first `i + 1` ticks. */
  lemma ShiftOk(rule: BaseRule, doc: Json, loopers: seq<Looper>, cols: seq<Segments>, ticks: seq<seq<Json>>, i: nat)
    requires |ticks| > 0 && i <= |ticks[1..]| && RowOf(rule, doc, loopers, cols, ticks[0]).Ok?
    requires RowsOkBefore(rule, doc, loopers, cols, ticks[1..], i)
    ensures RowsOkBefore(rule, doc, loopers, cols, ticks, i + 1)
  {
    forall j | 0 <= j < i + 1
      ensures RowOf(rule, doc, loopers, cols, ticks[j]).Ok?
    {
      if j > 0 {
        assert ticks[j] == ticks[1..][j - 1];
      }
    }
  }

  /** The ticks that drive row assembly: the iterator chain's, or a single
      tick over the bare document when no column iterates. */
  function Ticks(doc: Json, loopers: seq<Looper>): (r: (seq<seq<Json>>, Option<Error>))
    ensures forall i :: 0 <= i < |r.0| ==> |r.0[i]| == |loopers|
  {
    if |loopers| == 0 then ([[]], None)
    else
      var s := Chain(doc, loopers);
      assert forall i :: 0 <= i < |s.items| ==> s.items[i] in s.items;
      (s.items, s.failure)
  }

  /** The rows of a column list: compile the columns, then assemble one row
      per tick of the iterator chain. */
  function Build(rule: BaseRule, cols: seq<Json>, doc: Json): (r: Result<seq<seq<Value>>>)
    ensures Compile(cols).Err? ==> r == Err(Compile(cols).error)
    ensures r.Ok? ==> Compile(cols).Ok? && |r.value| == |Ticks(doc, Compile(cols).value.loopers).0|
    ensures r.Ok? ==> forall i :: 0 <= i < |r.value| ==> |r.value[i]| == |cols|
  {
    match Compile(cols)
    case Err(e) => Err(e)
    case Ok(comp) =>
      var (ticks, failure) := Ticks(doc, comp.loopers);
      var r := AssembleRows(rule, doc, comp.loopers, comp.splits, ticks, failure);
      assert r.Ok? ==> forall i :: 0 <= i < |r.value| ==> |r.value[i]| == |cols| by {
        if r.Ok? {
          forall i | 0 <= i < |r.value| ensures |r.value[i]| == |cols| {
            assert RowOf(rule, doc, comp.loopers, comp.splits, ticks[i]) == Ok(r.value[i]);
          }
        }
      }
      r
  }

  /** The output of `make2d`: rows, or records for an object definition. */
  datatype Table = Rows(rows: seq<seq<Value>>) | Records(records: seq<seq<(string, Value)>>)

  /** `objRow[key] = row[index]` for each definition key in order. */
  function ToRecord(keys: seq<string>, row: seq<Value>): seq<(string, Value)> {
    seq(|keys|, i requires 0 <= i < |keys| => (keys[i], if i < |row| then row[i] else Undefined))
  }

  /** Output shaping: rows unchanged for an array or string definition,
      records keyed by the definition's keys for an object definition, the
      `j`-th key paired with the row's `j`-th cell (undefined past its end). */
  function Shape(def: Json, rows: seq<seq<Value>>): (r: Table)
    ensures r.Records? <==> def.JObj?
    ensures !def.JObj? ==> r == Rows(rows)
    ensures def.JObj? ==> |r.records| == |rows|
    ensures def.JObj? ==> forall i :: 0 <= i < |rows| ==>
      && |r.records[i]| == |def.entries|
      && forall j :: 0 <= j < |def.entries| ==>
           r.records[i][j] == (def.entries[j].0, if j < |rows[i]| then rows[i][j] else Undefined)
  {
    if def.JObj? then
      var keys := Keys(def.entries);
      Records(seq(|rows|, i requires 0 <= i < |rows| => ToRecord(keys, rows[i])))
    else Rows(rows)
  }

  /** `objRow[key] = row[index]` read back: with distinct definition keys,
      property `key` of a record holds the row's cell at that key's position
      (`undefined` past the row's end). */
  lemma ShapeRecordsRead(def: Json, rows: seq<seq<Value>>, i: nat, j: nat)
    requires def.JObj? && DistinctKeys(def.entries)
    requires i < |rows| && j < |def.entries|
    ensures Shape(def, rows).Records? && i < |Shape(def, rows).records|
    ensures Lookup(Shape(def, rows).records[i], def.entries[j].0)
         == Some(if j < |rows[i]| then rows[i][j] else Undefined)
  {
    var rec := Shape(def, rows).records[i];
    assert DistinctKeys(rec) by {
      forall a, b | 0 <= a < b < |rec| ensures rec[a].0 != rec[b].0 {
        assert rec[a].0 == def.entries[a].0 && rec[b].0 == def.entries[b].0;
      }
    }
    ValueUnderKey(rec, j);
  }

  /** `make2d(definition, obj)` with the given rule for finding a column's
      base iterator. */
  function Make2dWith(rule: BaseRule, def: Json, doc: Json): (r: Result<Table>)
    ensures !(def.JArr? || IsPlainObject(def) || def.JStr?) ==> r == Err(BadDefinition)
    ensures r.Ok? ==> (r.value.Records? <==> def.JObj?)
    ensures def.JArr? ==> (r.Ok? <==> Build(rule, def.elems, doc).Ok?)
    ensures def.JArr? && r.Ok? ==> r.value == Rows(Build(rule, def.elems, doc).value)
    ensures def.JArr? && r.Err? ==> r.error == Build(rule, def.elems, doc).error
  {
    match DefinitionColumns(def)
    case Err(e) => Err(e)
    case Ok(cols) =>
      match Build(rule, cols, doc)
      case Err(e) => Err(e)
      case Ok(rows) => Ok(Shape(def, rows))
  }

  /** `make2d` as `index.js` writes it: a column's base iterator is the
      first whose path equals the column's second-to-last segment. */
  function Make2dAsWritten(def: Json, doc: Json): (r: Result<Table>)
    ensures !(def.JArr? || IsPlainObject(def) || def.JStr?) ==> r == Err(BadDefinition)
    ensures r.Ok? ==> (r.value.Records? <==> def.JObj?)
    ensures def.JArr? ==> (r.Ok? <==> Build(FirstPathMatch, def.elems, doc).Ok?)
    ensures def.JArr? && r.Ok? ==> r.value == Rows(Build(FirstPathMatch, def.elems, doc).value)
    ensures def.JArr? && r.Err? ==> r.error == Build(FirstPathMatch, def.elems, doc).error
  {
    Make2dWith(FirstPathMatch, def, doc)
  }

  /** `make2d` with each column resolved against the iterator of its own
      depth: the behaviour the rest of this model states properties of. */
  function Make2d(def: Json, doc: Json): (r: Result<Table>)
    ensures !(def.JArr? || IsPlainObject(def) || def.JStr?) ==> r == Err(BadDefinition)
    ensures r.Ok? ==> (r.value.Records? <==> def.JObj?)
    ensures def.JArr? ==> (r.Ok? <==> Build(OwnDepth, def.elems, doc).Ok?)
    ensures def.JArr? && r.Ok? ==> r.value == Rows(Build(OwnDepth, def.elems, doc).value)
    ensures def.JArr? && r.Err? ==> r.error == Build(OwnDepth, def.elems, doc).error
  {
    Make2dWith(OwnDepth, def, doc)
  }
}

=== FILE: iterate.dfy ===
/** The iterator chain: one iterator per looper, each nested one re-deriving
    its collection from its parent's current element. A chain is modelled by
    the sequence of its ticks; a tick lists the current element of every
    iterator, shallowest first, so `current()` of level `i` is `tick[i]`. */
module Iterate {
  import opened Wrappers
  import opened Json
  import opened Paths
  import opened Resolve

  /** The current elements of the iterators at one tick, shallowest first. */
  type Tick = t: seq<Json> | |t| > 0 witness [JNull]

  /** The current element of the deepest iterator of a tick. */
  function Cur(t: Tick): Json {
    t[|t| - 1]
  }

  /** What repeated `next()` calls produce: the ticks yielded, then either
      `done` (`failure == None`) or the error thrown by the next call. */
  datatype Stream = Stream(items: seq<Tick>, failure: Option<Error>)

  /** Ticks yielded before those of `s`. */
  function Prepend(ts: seq<Tick>, s: Stream): Stream {
    Stream(ts + s.items, s.failure)
  }

  /** The elements the root iterator (`simpleIterator`) enumerates: the
      collection found at the looper's path from the document root. It
      throws when that path resolves to undefined or null or cannot be
      walked, and otherwise enumerates the array's elements in order or the
      object's values in key order. */
  function RootElems(doc: Json, l: Looper): (r: Result<seq<Json>>)
    ensures GetValue(Adjusted(l), Def(doc)).Err? ==> r == Err(GetValue(Adjusted(l), Def(doc)).error)
    ensures GetValue(Adjusted(l), Def(doc)).Ok? ==>
      var v := GetValue(Adjusted(l), Def(doc)).value;
      && (r == Err(EmptyIterable) <==> v == Undefined || v == Def(JNull))
      && (v.Def? && v.json.JArr? ==> r == Ok(v.json.elems))
      && (v.Def? && v.json.JObj? ==> r == Ok(Values(v.json.entries)))
  {
    match GetValue(Adjusted(l), Def(doc))
    case Err(e) => Err(e)
    case Ok(v) => GetIterator(v)
  }

  /** The root iterator as a stream of one-element ticks. Its errors are
      thrown when the chain is built, before any tick. */
  function RootStream(doc: Json, l: Looper): (s: Stream)
    ensures forall t :: t in s.items ==> |t| == 1
    ensures RootElems(doc, l).Err? ==> s == Stream([], Some(RootElems(doc, l).error))
    ensures RootElems(doc, l).Ok? ==>
      && s.failure.None? && |s.items| == |RootElems(doc, l).value|
      && forall i :: 0 <= i < |s.items| ==> s.items[i] == [RootElems(doc, l).value[i]]
  {
    match RootElems(doc, l)
    case Err(e) => Stream([], Some(e))
    case Ok(es) => Stream(seq(|es|, i requires 0 <= i < |es| => [es[i]]), None)
  }

  /** The collection a nested iterator opens for one parent element: the
      value at `adj` below it. An undefined value contributes nothing; any
      other value goes to `getIterator`. */
  function Children(parent: Json, adj: Path): (r: Result<seq<Json>>)
    ensures GetValue(adj, Def(parent)) == Ok(Undefined) ==> r == Ok([])
    ensures GetValue(adj, Def(parent)) == Ok(Def(JNull)) ==> r == Err(EmptyIterable)
    ensures GetValue(adj, Def(parent)).Err? ==> r == Err(GetValue(adj, Def(parent)).error)
    ensures r.Err? ==> DataError(r.error)
  {
    match GetValue(adj, Def(parent))
    case Err(e) => Err(e)
    case Ok(Undefined) => Ok([])
    case Ok(v) => GetIterator(v)
  }

  /** The ticks of one parent tick `p` with child elements `cs`. */
  function Extend(p: Tick, cs: seq<Json>): (r: seq<Tick>)
    ensures |r| == |cs|
    ensures forall i :: 0 <= i < |cs| ==> r[i] == p + [cs[i]]
  {
    seq(|cs|, i requires 0 <= i < |cs| => p + [cs[i]])
  }

  /** The collections below the first `k` parent ticks are all found. */
  ghost predicate ChildrenOkBefore(ps: seq<Tick>, adj: Path, k: nat)
    requires k <= |ps|
  {
    forall j :: 0 <= j < k ==> Children(Cur(ps[j]), adj).Ok?
  }

  /** How a nested stream ends: as its parent did when every parent tick's
      collection is found, and otherwise with the error of the first parent
      tick whose collection is not. */
  ghost predicate EndsAsNested(ps: seq<Tick>, tail: Option<Error>, adj: Path, f: Option<Error>) {
    || (ChildrenOkBefore(ps, adj, |ps|) && f == tail)
    || exists k :: 0 <= k < |ps| && ChildrenOkBefore(ps, adj, k) && Children(Cur(ps[k]), adj).Err?
         && f == Some(Children(Cur(ps[k]), adj).error)
  }

  /** The nested iterator over a parent stream, as a parent-major nested
      loop: for each parent tick in order, one tick per element of its child
      collection; the parent's own end (or error) ends it, unless a parent
      tick's collection throws first. */
  function Nest(ps: seq<Tick>, tail: Option<Error>, adj: Path): (s: Stream)
    ensures EndsAsNested(ps, tail, adj, s.failure)
    decreases |ps|
  {
    if |ps| == 0 then Stream([], tail)
    else
      match Children(Cur(ps[0]), adj)
      case Err(e) => assert ChildrenOkBefore(ps, adj, 0); Stream([], Some(e))
      case Ok(cs) =>
        var rest := Nest(ps[1..], tail, adj);
        EndsAsNestedShift(ps, tail, adj, rest.failure);
        Prepend(Extend(ps[0], cs), rest)
  }

  /** A parent tick whose collection is found in front of a nested stream
      does not change how it ends. */
  lemma EndsAsNestedShift(ps: seq<Tick>, tail: Option<Error>, adj: Path, f: Option<Error>)
    requires |ps| > 0 && Children(Cur(ps[0]), adj).Ok?
    requires EndsAsNested(ps[1..], tail, adj, f)
    ensures EndsAsNested(ps, tail, adj, f)
  {
    var tl := ps[1..];
    forall k | 0 <= k < |tl| && ChildrenOkBefore(tl, adj, k)
      ensures ChildrenOkBefore(ps, adj, k + 1)
    {
      forall j | 0 <= j < k + 1 ensures Children(Cur(ps[j]), adj).Ok? {
        if j > 0 { assert ps[j] == tl[j - 1]; }
      }
    }
    if ChildrenOkBefore(tl, adj, |tl|) && f == tail {
      assert ChildrenOkBefore(ps, adj, |ps|);
    } else {
      var k :| 0 <= k < |tl| && ChildrenOkBefore(tl, adj, k) && Children(Cur(tl[k]), adj).Err?
        && f == Some(Children(Cur(tl[k]), adj).error);
      assert ps[k + 1] == tl[k];
      assert ChildrenOkBefore(ps, adj, k + 1);
    }
  }

  lemma PrependAssoc(a: seq<Tick>, b: seq<Tick>, s: Stream)
    ensures Prepend(a, Prepend(b, s)) == Prepend(a + b, s)
  {
    assert a + (b + s.items) == (a + b) + s.items;
  }

  /** `nestedIterator`'s `next()` driven until it reports done or throws.
      The outer loop pulls the next parent tick when no inner iterator is
      open (`myIterator == null`); the inner loop drains the open inner
      iterator, here the elements it has left. It yields exactly the nested
      loop. */
  method DrainNested(parent: Stream, adj: Path) returns (out: Stream)
    ensures out == Nest(parent.items, parent.failure, adj)
  {
    var items: seq<Tick> := [];
    var pi := 0;
    while pi < |parent.items|
      invariant 0 <= pi <= |parent.items|
      invariant Nest(parent.items, parent.failure, adj)
             == Prepend(items, Nest(parent.items[pi..], parent.failure, adj))
    {
      var p := parent.items[pi];
      NestAt(parent.items, pi, parent.failure, adj);
      pi := pi + 1;
      var collection := GetValue(adj, Def(Cur(p)));
      if collection.Err? {
        assert Children(Cur(p), adj) == Err(collection.error);
        return Stream(items, Some(collection.error));
      }
      var elems: seq<Json> := [];
      if !collection.value.Undefined? {
        var it := GetIterator(collection.value);
        if it.Err? {
          assert Children(Cur(p), adj) == it;
          return Stream(items, Some(it.error));
        }
        elems := it.value;
      }
      assert Children(Cur(p), adj) == Ok(elems);
      ghost var before := items;
      var rest := elems;
      while |rest| > 0
        invariant before + Extend(p, elems) == items + Extend(p, rest)
      {
        ExtendFirst(items, p, rest);
        items := items + [p + [rest[0]]];
        rest := rest[1..];
      }
      assert items + Extend(p, rest) == items;
      PrependAssoc(before, Extend(p, elems), Nest(parent.items[pi..], parent.failure, adj));
    }
    assert parent.items[pi..] == [];
    return Stream(items, parent.failure);
  }

  /** The nested stream from parent tick `pi` on: that tick's children,
      then the stream from the next parent tick. */
  lemma NestAt(ps: seq<Tick>, pi: nat, tail: Option<Error>, adj: Path)
    requires pi < |ps|
    ensures Nest(ps[pi..], tail, adj) ==
      match Children(Cur(ps[pi]), adj)
      case Err(e) => Stream([], Some(e))
      case Ok(cs) => Prepend(Extend(ps[pi], cs), Nest(ps[pi + 1..], tail, adj))
  {
    assert ps[pi..][1..] == ps[pi + 1..];
  }

  /** Yielding the first remaining element of an open inner iterator. */
  lemma ExtendFirst(items: seq<Tick>, owner: Tick, rest: seq<Json>)
    requires |rest| > 0
    ensures items + Extend(owner, rest) == (items + [owner + [rest[0]]]) + Extend(owner, rest[1..])
  {
    assert Extend(owner, rest) == [owner + [rest[0]]] + Extend(owner, rest[1..]);
  }

  /** Every tick of a nested stream extends a parent tick by one element of
      that parent's child collection. */
  lemma {:induction false} NestSound(ps: seq<Tick>, tail: Option<Error>, adj: Path, t: Tick)
    requires t in Nest(ps, tail, adj).items
    ensures |t| >= 2 && t[..|t| - 1] in ps
    ensures Children(t[|t| - 2], adj).Ok? && t[|t| - 1] in Children(t[|t| - 2], adj).value
    decreases |ps|
  {
    var cs := Children(Cur(ps[0]), adj).value;
    var ext := Extend(ps[0], cs);
    if t in ext {
      var i :| 0 <= i < |cs| && ext[i] == t;
      assert t[..|t| - 1] == ps[0];
    } else {
      NestSound(ps[1..], tail, adj, t);
    }
  }

  /** A nested stream that ends without error had no parent error and
      found a collection (or nothing) below every parent tick. */
  lemma NestNoFailure(ps: seq<Tick>, tail: Option<Error>, adj: Path)
    requires Nest(ps, tail, adj).failure.None?
    ensures tail.None?
    ensures forall p :: p in ps ==> Children(Cur(p), adj).Ok?
  {
  }

  /** A nested stream that ends without error holds every extension of a
      parent tick by one of that parent's children. */
  lemma {:induction false} NestComplete(ps: seq<Tick>, tail: Option<Error>, adj: Path, p: Tick, c: Json)
    requires Nest(ps, tail, adj).failure.None?
    requires p in ps && Children(Cur(p), adj).Ok? && c in Children(Cur(p), adj).value
    ensures p + [c] in Nest(ps, tail, adj).items
    decreases |ps|
  {
    var cs := Children(Cur(ps[0]), adj).value;
    if p == ps[0] {
      var i :| 0 <= i < |cs| && cs[i] == c;
      assert Extend(ps[0], cs)[i] == p + [c];
    } else {
      assert p in ps[1..];
      NestComplete(ps[1..], tail, adj, p, c);
    }
  }

  /** The chain of iterators for a non-empty looper list: the root iterator
      over the first looper, each later one nested under the previous. Its
      ticks have one element per looper. */
  function Chain(doc: Json, loopers: seq<Looper>): (s: Stream)
    requires |loopers| > 0
    ensures forall t :: t in s.items ==> |t| == |loopers|
    decreases |loopers|
  {
    if |loopers| == 1 then RootStream(doc, loopers[0])
    else
      var parent := Chain(doc, loopers[..|loopers| - 1]);
      var s := Nest(parent.items, parent.failure, Adjusted(loopers[|loopers| - 1]));
      assert forall t :: t in s.items ==> |t| == |loopers| by {
        forall t | t in s.items ensures |t| == |loopers| {
          NestSound(parent.items, parent.failure, Adjusted(loopers[|loopers| - 1]), t);
        }
      }
      s
  }

  /** A chain of more than one looper is the nested stream below the chain
      of all but its last looper. */
  lemma ChainStep(doc: Json, loopers: seq<Looper>)
    requires |loopers| > 1
    ensures var front := Chain(doc, loopers[..|loopers| - 1]);
      Chain(doc, loopers) == Nest(front.items, front.failure, Adjusted(loopers[|loopers| - 1]))
  {
  }

  /** The lockstep relation: `t[0]` is an element of the root collection and
      each `t[i + 1]` an element of the collection found below `t[i]`. */
  ghost predicate Aligned(doc: Json, loopers: seq<Looper>, t: seq<Json>)
    decreases |loopers|
  {
    && |loopers| > 0
    && |t| == |loopers|
    && if |loopers| == 1 then
         RootElems(doc, loopers[0]).Ok? && t[0] in RootElems(doc, loopers[0]).value
       else
         && Aligned(doc, loopers[..|loopers| - 1], t[..|t| - 1])
         && var ch := Children(t[|t| - 2], Adjusted(loopers[|loopers| - 1]));
            ch.Ok? && t[|t| - 1] in ch.value
  }

  /** At every tick, each shallower iterator's current element is the
      ancestor, at its depth, of the deepest iterator's current element. */
  lemma {:induction false} ChainSound(doc: Json, loopers: seq<Looper>, t: Tick)
    requires |loopers| > 0 && t in Chain(doc, loopers).items
    ensures Aligned(doc, loopers, t)
    decreases |loopers|
  {
    if |loopers| == 1 {
      RootSound(doc, loopers, t);
    } else {
      var front := loopers[..|loopers| - 1];
      var parent := Chain(doc, front);
      var adj := Adjusted(loopers[|loopers| - 1]);
      assert Chain(doc, loopers) == Nest(parent.items, parent.failure, adj);
      NestSound(parent.items, parent.failure, adj, t);
      ChainSound(doc, front, t[..|t| - 1]);
      AlignedStep(doc, loopers, t);
    }
  }

  lemma RootSound(doc: Json, loopers: seq<Looper>, t: Tick)
    requires |loopers| == 1 && t in RootStream(doc, loopers[0]).items
    ensures Aligned(doc, loopers, t)
  {
    var items := RootStream(doc, loopers[0]).items;
    var es := RootElems(doc, loopers[0]).value;
    var k :| 0 <= k < |items| && items[k] == t;
    assert t[0] == es[k];
  }

  /** One level of the lockstep relation: an aligned front tuple and a last
      element found below the front's last. */
  lemma AlignedStep(doc: Json, loopers: seq<Looper>, t: seq<Json>)
    requires |loopers| > 1 && |t| == |loopers|
    requires Aligned(doc, loopers[..|loopers| - 1], t[..|t| - 1])
    requires var ch := Children(t[|t| - 2], Adjusted(loopers[|loopers| - 1]));
      ch.Ok? && t[|t| - 1] in ch.value
    ensures Aligned(doc, loopers, t)
  {
  }

  /** A chain that ends without error yields every aligned tuple. */
  lemma {:induction false} ChainComplete(doc: Json, loopers: seq<Looper>, t: seq<Json>)
    requires |loopers| > 0 && Chain(doc, loopers).failure.None?
    requires Aligned(doc, loopers, t)
    ensures t in Chain(doc, loopers).items
    decreases |loopers|
  {
    if |loopers| == 1 {
      RootComplete(doc, loopers[0], t);
    } else {
      var front := loopers[..|loopers| - 1];
      var parent := Chain(doc, front);
      var adj := Adjusted(loopers[|loopers| - 1]);
      assert Chain(doc, loopers) == Nest(parent.items, parent.failure, adj);
      NestNoFailure(parent.items, parent.failure, adj);
      ChainComplete(doc, front, t[..|t| - 1]);
      NestStep(parent, adj, t);
    }
  }

  /** One level of completeness: a tuple whose front is a parent tick and
      whose last element is a child of the front's last is a nested tick. */
  lemma NestStep(parent: Stream, adj: Path, t: seq<Json>)
    requires |t| > 1 && parent.failure.None?
    requires Nest(parent.items, parent.failure, adj).failure.None?
    requires t[..|t| - 1] in parent.items
    requires Children(t[|t| - 2], adj).Ok? && t[|t| - 1] in Children(t[|t| - 2], adj).value
    ensures t in Nest(parent.items, parent.failure, adj).items
  {
    var p: Tick := t[..|t| - 1];
    assert Cur(p) == t[|t| - 2];
    NestComplete(parent.items, parent.failure, adj, p, t[|t| - 1]);
    SnocLast(t);
  }

  lemma SnocLast(t: seq<Json>)
    requires |t| > 0
    ensures t[..|t| - 1] + [t[|t| - 1]] == t
  {
  }

  /** The root stream holds a one-element tick for each root element. */
  lemma RootComplete(doc: Json, l: Looper, t: seq<Json>)
    requires RootElems(doc, l).Ok?
    requires |t| == 1 && t[0] in RootElems(doc, l).value
    ensures t in RootStream(doc, l).items
  {
    var es := RootElems(doc, l).value;
    var s := RootStream(doc, l);
    var i :| 0 <= i < |es| && es[i] == t[0];
    assert s.items[i] == [es[i]] == t;
  }

  /** The errors a document can cause while it is walked or enumerated. */
  predicate DataError(e: Error) {
    e.UndefinedStep? || e.NotAnObject? || e.EmptyIterable?
  }

  /** A nested stream fails only with its parent's error or with an error
      met below a parent tick. */
  lemma {:induction false} NestFailureKind(ps: seq<Tick>, tail: Option<Error>, adj: Path)
    requires tail.Some? ==> DataError(tail.value)
    ensures Nest(ps, tail, adj).failure.Some? ==> DataError(Nest(ps, tail, adj).failure.value)
    decreases |ps|
  {
    if |ps| > 0 {
      NestFailureKind(ps[1..], tail, adj);
    }
  }

  /** The chain can only fail with an error the document causes. */
  lemma {:induction false} ChainFailureKind(doc: Json, loopers: seq<Looper>)
    requires |loopers| > 0
    ensures Chain(doc, loopers).failure.Some? ==> DataError(Chain(doc, loopers).failure.value)
    decreases |loopers|
  {
    if |loopers| > 1 {
      var front := loopers[..|loopers| - 1];
      var parent := Chain(doc, front);
      var adj := Adjusted(loopers[|loopers| - 1]);
      assert Chain(doc, loopers) == Nest(parent.items, parent.failure, adj);
      ChainFailureKind(doc, front);
      NestFailureKind(parent.items, parent.failure, adj);
    }
  }
}

=== FILE: json.dfy ===
/** The documents the engine walks: JSON-like values with ordered objects. */
module Json {
  import opened Wrappers

  /** A JSON value. An object is the list of its entries in the order in
      which JavaScript enumerates its properties (`Object.keys`,
      `Object.values`); keys are taken to be distinct. */
  datatype Json =
    | JNull
    | JBool(b: bool)
    | JNum(n: int)
    | JStr(s: string)
    | JArr(elems: seq<Json>)
    | JObj(entries: seq<(string, Json)>)

  /** A JavaScript value that may be `undefined`: what a path resolves to. */
  datatype Value = Undefined | Def(json: Json)

  /** `Object.values` of an object (or of a record built from one). */
  function Values<T>(entries: seq<(string, T)>): (vs: seq<T>)
    ensures |vs| == |entries|
    ensures forall i :: 0 <= i < |entries| ==> vs[i] == entries[i].1
  {
    seq(|entries|, i requires 0 <= i < |entries| => entries[i].1)
  }

  /** `Object.keys` of an object (or of a record built from one). */
  function Keys<T>(entries: seq<(string, T)>): (ks: seq<string>)
    ensures |ks| == |entries|
    ensures forall i :: 0 <= i < |entries| ==> ks[i] == entries[i].0
  {
    seq(|entries|, i requires 0 <= i < |entries| => entries[i].0)
  }

  /** The value stored under `key`, if the object has that property. */
  function Lookup<T>(entries: seq<(string, T)>, key: string): (r: Option<T>)
    ensures r.Some? <==> exists i :: 0 <= i < |entries| && entries[i].0 == key
    ensures r.Some? ==> exists i :: 0 <= i < |entries| && entries[i] == (key, r.value)
    decreases |entries|
  {
    if |entries| == 0 then None
    else if entries[0].0 == key then Some(entries[0].1)
    else
      var r := Lookup(entries[1..], key);
      assert forall i :: 1 <= i < |entries| ==> entries[i] == entries[1..][i - 1];
      r
  }

  /** No two entries of an object share a key, as for every parsed JSON
      object. */
  predicate DistinctKeys<T>(entries: seq<(string, T)>) {
    forall i, j :: 0 <= i < j < |entries| ==> entries[i].0 != entries[j].0
  }

  /** `Object.values` and `Object.keys` agree with property access: the
      `i`-th value is what looking up the `i`-th key finds. */
  lemma {:induction false} ValueUnderKey<T>(entries: seq<(string, T)>, i: nat)
    requires DistinctKeys(entries) && i < |entries|
    ensures Lookup(entries, Keys(entries)[i]) == Some(Values(entries)[i])
    decreases i
  {
    if i > 0 {
      var tl := entries[1..];
      assert entries[0].0 != entries[i].0;
      assert DistinctKeys(tl) by {
        forall a, b | 0 <= a < b < |tl|
          ensures tl[a].0 != tl[b].0
        {
          assert tl[a] == entries[a + 1] && tl[b] == entries[b + 1];
        }
      }
      ValueUnderKey(tl, i - 1);
      assert tl[i - 1] == entries[i];
    }
  }
}

=== FILE: laws.dfy ===
/** What a `make2d` call promises as a whole: how its rows follow the
    iterator chain, which errors it reports, how the three definition forms
    relate, and when the lookup as written agrees with the corrected one. */
module Laws {
  import opened Wrappers
  import opened Json
  import opened Strings
  import opened Paths
  import opened Resolve
  import opened Iterate
  import opened Flatten

  /** The rows of a column list fail only with a non-string column, a
      looper mismatch, or an error met while walking the document; a column
      never misses its base iterator. */
  lemma BuildErrors(rule: BaseRule, cols: seq<Json>, doc: Json)
    ensures Build(rule, cols, doc).Err? ==>
      var e := Build(rule, cols, doc).error;
      e == ColumnNotString || e.LoopMismatch? || DataError(e)
  {
    var comp := Compile(cols);
    if comp.Ok? {
      CompileSpec(cols);
      var L := comp.value.loopers;
      var tf := Ticks(doc, L);
      if |L| > 0 {
        ChainFailureKind(doc, L);
      }
      ValidCellsResolve(rule, doc, comp.value);
      AssembleErrors(rule, doc, L, comp.value.splits, tf.0, tf.1);
    }
  }

  /** Every cell of a column list at a tick of the given width fails only
      with an error of the document. */
  ghost predicate CellsResolve(rule: BaseRule, doc: Json, loopers: seq<Looper>, splits: seq<Segments>) {
    forall c, t :: 0 <= c < |splits| && |t| == |loopers| && Cell(rule, doc, loopers, splits[c], t).Err? ==>
      DataError(Cell(rule, doc, loopers, splits[c], t).error)
  }

  lemma ValidCellsResolve(rule: BaseRule, doc: Json, comp: Compiled)
    requires Valid(comp)
    ensures CellsResolve(rule, doc, comp.loopers, comp.splits)
  {
    forall c, t | 0 <= c < |comp.splits| && |t| == |comp.loopers|
      ensures Cell(rule, doc, comp.loopers, comp.splits[c], t).Err? ==>
        DataError(Cell(rule, doc, comp.loopers, comp.splits[c], t).error)
    {
      CellSpec(rule, doc, comp, c, t);
    }
  }

  /** Row assembly over well-shaped ticks fails only with the chain's error
      or a cell's. */
  lemma AssembleErrors(rule: BaseRule, doc: Json, loopers: seq<Looper>, splits: seq<Segments>,
                       ticks: seq<seq<Json>>, failure: Option<Error>)
    requires CellsResolve(rule, doc, loopers, splits)
    requires forall i :: 0 <= i < |ticks| ==> |ticks[i]| == |loopers|
    requires failure.Some? ==> DataError(failure.value)
    ensures var r := AssembleRows(rule, doc, loopers, splits, ticks, failure);
      r.Err? ==> DataError(r.error)
  {
    var r := AssembleRows(rule, doc, loopers, splits, ticks, failure);
    if r.Err? && failure != Some(r.error) {
      var i :| 0 <= i < |ticks| && RowOf(rule, doc, loopers, splits, ticks[i]) == Err(r.error);
      var c :| 0 <= c < |splits| && Cell(rule, doc, loopers, splits[c], ticks[i]) == Err(r.error);
    }
  }

  /** A failing `make2d` reports a rejected definition, a non-string column,
      a looper mismatch, or an error met while walking the document. */
  lemma Make2dErrors(rule: BaseRule, def: Json, doc: Json)
    ensures Make2dWith(rule, def, doc).Err? ==>
      var e := Make2dWith(rule, def, doc).error;
      e == BadDefinition || e == ColumnNotString || e.LoopMismatch? || DataError(e)
  {
    if DefinitionColumns(def).Ok? {
      BuildErrors(rule, DefinitionColumns(def).value, doc);
    }
  }

  /** A successful build yields exactly one row per tick of the iterator
      chain, in tick order, and each row holds every column's cell at that
      tick. Every tick lines up an element of the root collection with a
      descendant chain of elements, and every such lineup is a tick. With no
      looper there is a single tick over the bare document. */
  lemma RowsFollowTicks(rule: BaseRule, cols: seq<Json>, doc: Json)
    requires Build(rule, cols, doc).Ok?
    ensures Compile(cols).Ok?
    ensures var comp := Compile(cols).value;
      var L := comp.loopers;
      var ticks := Ticks(doc, L).0;
      var rows := Build(rule, cols, doc).value;
      && Valid(comp)
      && Ticks(doc, L).1.None?
      && |rows| == |ticks|
      && (forall i :: 0 <= i < |ticks| ==>
            && |ticks[i]| == |L|
            && (|L| > 0 ==> Aligned(doc, L, ticks[i]))
            && |rows[i]| == |cols|
            && forall c :: 0 <= c < |cols| ==> Cell(rule, doc, L, comp.splits[c], ticks[i]) == Ok(rows[i][c]))
      && (|L| > 0 ==> forall t :: Aligned(doc, L, t) ==> t in ticks)
      && (|L| == 0 ==> ticks == [[]])
  {
    var comp := Compile(cols).value;
    CompileSpec(cols);
    var L := comp.loopers;
    var ticks := Ticks(doc, L).0;
    var rows := Build(rule, cols, doc).value;
    assert rows == AssembleRows(rule, doc, L, comp.splits, ticks, Ticks(doc, L).1).value;
    forall i | 0 <= i < |ticks|
      ensures |L| > 0 ==> Aligned(doc, L, ticks[i])
      ensures |rows[i]| == |cols|
      ensures forall c :: 0 <= c < |cols| ==> Cell(rule, doc, L, comp.splits[c], ticks[i]) == Ok(rows[i][c])
    {
      assert RowOf(rule, doc, L, comp.splits, ticks[i]) == Ok(rows[i]);
      if |L| > 0 {
        ChainSound(doc, L, ticks[i]);
      }
    }
    if |L| > 0 {
      forall t | Aligned(doc, L, t)
        ensures t in ticks
      {
        ChainComplete(doc, L, t);
      }
    }
  }

  /** Columns without a `*` token give exactly one row, each cell resolved
      from the document root, and the build fails exactly when one of those
      paths fails. */
  lemma NoStarSingleRow(rule: BaseRule, cols: seq<Json>, doc: Json)
    requires AllStrings(cols)
    requires forall c :: 0 <= c < |cols| ==> Star !in SplitOn(cols[c].s, '.')
    ensures var r := Build(rule, cols, doc);
      && (r.Ok? <==> forall c :: 0 <= c < |cols| ==> GetValue(SplitOn(cols[c].s, '.'), Def(doc)).Ok?)
      && (r.Ok? ==>
            && |r.value| == 1 && |r.value[0]| == |cols|
            && forall c :: 0 <= c < |cols| ==> GetValue(SplitOn(cols[c].s, '.'), Def(doc)) == Ok(r.value[0][c]))
  {
    NoStarCompile(cols);
    var splits := Compile(cols).value.splits;
    assert Build(rule, cols, doc) == AssembleRows(rule, doc, [], splits, [[]], None);
    assert forall c :: 0 <= c < |cols| ==>
      Cell(rule, doc, [], splits[c], []) == GetValue(SplitOn(cols[c].s, '.'), Def(doc));
  }

  /** Star-free columns compile to one segment each and no looper. */
  lemma NoStarCompile(cols: seq<Json>)
    requires AllStrings(cols)
    requires forall c :: 0 <= c < |cols| ==> Star !in SplitOn(cols[c].s, '.')
    ensures Compile(cols).Ok? && Compile(cols).value.loopers == []
    ensures |Compile(cols).value.splits| == |cols|
    ensures forall c :: 0 <= c < |cols| ==> Compile(cols).value.splits[c] == [SplitOn(cols[c].s, '.')]
  {
    var splits := SegsOf(cols);
    forall c | 0 <= c < |cols|
      ensures splits[c] == [SplitOn(cols[c].s, '.')]
      ensures StarSegs(splits[c]) == []
    {
      SplitStarNoStar(SplitOn(cols[c].s, '.'));
      assert StarSegs([SplitOn(cols[c].s, '.')][1..]) == [];
    }
    CompileSpec(cols);
    assert Consistent(splits);
    if |cols| > 0 {
      var c :| 0 <= c < |splits| && |StarSegs(splits[c])| == MaxDepth(splits);
    }
  }

  /** A column list from an array with a non-empty list of strings. */
  function StrCols(cs: seq<string>): (r: seq<Json>)
    ensures |r| == |cs| && AllStrings(r)
    ensures forall i :: 0 <= i < |cs| ==> r[i] == JStr(cs[i])
  {
    seq(|cs|, i requires 0 <= i < |cs| => JStr(cs[i]))
  }

  /** A string definition is the same as the array of its `|`-separated,
      trimmed pieces. */
  lemma StringMatchesArray(rule: BaseRule, cs: seq<string>, doc: Json)
    requires |cs| > 0
    requires forall i :: 0 <= i < |cs| ==> '|' !in cs[i] && Trimmed(cs[i])
    ensures Make2dWith(rule, JStr(Join(cs, '|')), doc) == Make2dWith(rule, JArr(StrCols(cs)), doc)
  {
    DefinitionOfJoin(cs);
    SameColumnsSameTable(rule, JStr(Join(cs, '|')), JArr(StrCols(cs)), doc);
  }

  /** Splitting the joined pieces gives the pieces back, and trimming leaves
      them as they are. */
  lemma DefinitionOfJoin(cs: seq<string>)
    requires |cs| > 0
    requires forall i :: 0 <= i < |cs| ==> '|' !in cs[i] && Trimmed(cs[i])
    ensures DefinitionColumns(JStr(Join(cs, '|'))) == Ok(StrCols(cs))
  {
    var s := Join(cs, '|');
    SplitJoin(cs, '|');
    var parts := SplitOn(s, '|');
    var v := seq(|parts|, i requires 0 <= i < |parts| => JStr(Trim(parts[i])));
    assert DefinitionColumns(JStr(s)) == Ok(v);
    forall i | 0 <= i < |cs|
      ensures v[i] == StrCols(cs)[i]
    {
      TrimSpec(cs[i]);
    }
    assert v == StrCols(cs);
  }

  /** Two non-object definitions with the same column list give the same
      table. */
  lemma SameColumnsSameTable(rule: BaseRule, d1: Json, d2: Json, doc: Json)
    requires DefinitionColumns(d1) == DefinitionColumns(d2) && !d1.JObj? && !d2.JObj?
    ensures Make2dWith(rule, d1, doc) == Make2dWith(rule, d2, doc)
  {
  }

  /** An object definition with an own `constructor` key is rejected.
      Any other object definition gives the rows of the array of its values,
      each turned into a record that pairs every definition key, in order,
      with that column's cell. */
  lemma ObjectMatchesArray(rule: BaseRule, es: seq<(string, Json)>, doc: Json)
    ensures !IsPlainObject(JObj(es)) ==> Make2dWith(rule, JObj(es), doc) == Err(BadDefinition)
    ensures IsPlainObject(JObj(es)) ==>
      var obj := Make2dWith(rule, JObj(es), doc);
      var arr := Make2dWith(rule, JArr(Values(es)), doc);
      && (obj.Err? <==> arr.Err?)
      && (obj.Err? ==> obj.error == arr.error)
      && (obj.Ok? ==>
            && obj.value.Records? && arr.value.Rows?
            && |obj.value.records| == |arr.value.rows|
            && forall i :: 0 <= i < |obj.value.records| ==>
                 && |obj.value.records[i]| == |es|
                 && forall j :: 0 <= j < |es| ==> obj.value.records[i][j] == (es[j].0, arr.value.rows[i][j]))
  {
    var cols := Values(es);
    if IsPlainObject(JObj(es)) {
      assert DefinitionColumns(JObj(es)) == Ok(cols);
      assert DefinitionColumns(JArr(cols)) == Ok(cols);
      var b := Build(rule, cols, doc);
      if b.Ok? {
        ObjectShape(es, b.value);
      }
    }
  }

  /** Reading a record of an object definition's table by key: with
      distinct keys, property `key` of record `i` holds the cell that the
      array of the definition's values gives for that key's column. */
  lemma RecordKeysReadCells(rule: BaseRule, es: seq<(string, Json)>, doc: Json, i: nat, j: nat)
    requires IsPlainObject(JObj(es)) && DistinctKeys(es)
    requires Make2dWith(rule, JObj(es), doc).Ok? && j < |es|
    requires i < |Make2dWith(rule, JObj(es), doc).value.records|
    ensures var arr := Make2dWith(rule, JArr(Values(es)), doc);
      && arr.Ok? && arr.value.Rows? && i < |arr.value.rows| && j < |arr.value.rows[i]|
      && Lookup(Make2dWith(rule, JObj(es), doc).value.records[i], es[j].0) == Some(arr.value.rows[i][j])
  {
    ObjectMatchesArray(rule, es, doc);
    var rec := Make2dWith(rule, JObj(es), doc).value.records[i];
    assert DistinctKeys(rec) by {
      forall a, b | 0 <= a < b < |rec| ensures rec[a].0 != rec[b].0 {
        assert rec[a].0 == es[a].0 && rec[b].0 == es[b].0;
      }
    }
    ValueUnderKey(rec, j);
  }

  /** Shaping full-width rows by an object definition pairs each key with
      its column's cell. */
  lemma ObjectShape(es: seq<(string, Json)>, rows: seq<seq<Value>>)
    requires forall i :: 0 <= i < |rows| ==> |rows[i]| == |es|
    ensures Shape(JObj(es), rows).Records?
    ensures |Shape(JObj(es), rows).records| == |rows|
    ensures forall i :: 0 <= i < |rows| ==>
      && |Shape(JObj(es), rows).records[i]| == |es|
      && forall j :: 0 <= j < |es| ==> Shape(JObj(es), rows).records[i][j] == (es[j].0, rows[i][j])
  {
  }

  /** No two loopers are the same list of tokens. */
  predicate Distinct(loopers: seq<Looper>) {
    forall i, j :: 0 <= i < j < |loopers| ==> loopers[i] != loopers[j]
  }

  /** Both lookup rules pick the same iterator for every column. */
  ghost predicate SameBase(loopers: seq<Looper>, cols: seq<Segments>) {
    forall c :: 0 <= c < |cols| && |cols[c]| > 1 ==>
      BaseIndex(FirstPathMatch, loopers, cols[c]) == BaseIndex(OwnDepth, loopers, cols[c])
  }

  lemma {:induction false} RowOfSameBase(doc: Json, loopers: seq<Looper>, cols: seq<Segments>, t: seq<Json>)
    requires SameBase(loopers, cols)
    ensures RowOf(FirstPathMatch, doc, loopers, cols, t) == RowOf(OwnDepth, doc, loopers, cols, t)
    decreases |cols|
  {
    if |cols| > 0 {
      assert Cell(FirstPathMatch, doc, loopers, cols[0], t) == Cell(OwnDepth, doc, loopers, cols[0], t);
      assert forall c :: 1 <= c < |cols| ==> cols[1..][c - 1] == cols[c];
      RowOfSameBase(doc, loopers, cols[1..], t);
    }
  }

  lemma {:induction false} AssembleSameBase(doc: Json, loopers: seq<Looper>, cols: seq<Segments>,
                                            ticks: seq<seq<Json>>, failure: Option<Error>)
    requires SameBase(loopers, cols)
    ensures AssembleRows(FirstPathMatch, doc, loopers, cols, ticks, failure)
         == AssembleRows(OwnDepth, doc, loopers, cols, ticks, failure)
    decreases |ticks|
  {
    if |ticks| > 0 {
      RowOfSameBase(doc, loopers, cols, ticks[0]);
      AssembleSameBase(doc, loopers, cols, ticks[1..], failure);
    }
  }

  /** When no looper is repeated, the lookup as written finds each column's
      own-depth iterator, so both lookups build the same rows. */
  lemma BuildAgreesWhenDistinct(cols: seq<Json>, doc: Json)
    requires Compile(cols).Ok? && Distinct(Compile(cols).value.loopers)
    ensures Build(FirstPathMatch, cols, doc) == Build(OwnDepth, cols, doc)
  {
    var comp := Compile(cols).value;
    CompileSpec(cols);
    DistinctSameBase(comp);
    var tf := Ticks(doc, comp.loopers);
    AssembleSameBase(doc, comp.loopers, comp.splits, tf.0, tf.1);
  }

  /** With distinct loopers, the first looper whose joined path matches a
      column's base segment is the one at that segment's depth. */
  lemma DistinctSameBase(comp: Compiled)
    requires Valid(comp) && Distinct(comp.loopers)
    ensures SameBase(comp.loopers, comp.splits)
  {
    var L := comp.loopers;
    forall c | 0 <= c < |comp.splits| && |comp.splits[c]| > 1
      ensures BaseIndex(FirstPathMatch, L, comp.splits[c]) == BaseIndex(OwnDepth, L, comp.splits[c])
    {
      LookupFound(FirstPathMatch, comp, c);
      LookupFound(OwnDepth, comp, c);
    }
  }

  /** `make2d` as written and as corrected agree on every definition whose
      loopers are pairwise distinct. */
  lemma AsWrittenAgreesWhenDistinct(def: Json, doc: Json)
    requires DefinitionColumns(def).Ok? && Compile(DefinitionColumns(def).value).Ok?
    requires Distinct(Compile(DefinitionColumns(def).value).value.loopers)
    ensures Make2dAsWritten(def, doc) == Make2d(def, doc)
  {
    BuildAgreesWhenDistinct(DefinitionColumns(def).value, doc);
  }

  /** A tick whose every column resolves has exactly those cells as its row. */
  lemma RowOfCells(rule: BaseRule, doc: Json, loopers: seq<Looper>, cols: seq<Segments>, t: seq<Json>, vals: seq<Value>)
    requires |vals| == |cols|
    requires forall i :: 0 <= i < |cols| ==> Cell(rule, doc, loopers, cols[i], t) == Ok(vals[i])
    ensures RowOf(rule, doc, loopers, cols, t) == Ok(vals)
  {
    var r := RowOf(rule, doc, loopers, cols, t);
    assert r.Ok?;
    assert forall i :: 0 <= i < |cols| ==> r.value[i] == vals[i];
    assert r.value == vals;
  }

  /** Finished ticks whose every row builds give exactly those rows. */
  lemma AssembleOfRows(rule: BaseRule, doc: Json, loopers: seq<Looper>, cols: seq<Segments>,
                       ticks: seq<seq<Json>>, rows: seq<seq<Value>>)
    requires |rows| == |ticks|
    requires forall i :: 0 <= i < |ticks| ==> RowOf(rule, doc, loopers, cols, ticks[i]) == Ok(rows[i])
    ensures AssembleRows(rule, doc, loopers, cols, ticks, None) == Ok(rows)
  {
    var r := AssembleRows(rule, doc, loopers, cols, ticks, None);
    assert r.Ok?;
    assert forall i :: 0 <= i < |ticks| ==> r.value[i] == rows[i];
    assert r.value == rows;
  }
}

=== FILE: paths.dfy ===
/** Column paths: dotted token lists cut into segments at `*` tokens. */
module Paths {

  /** One path, as the list of its `.`-separated tokens. */
  type Path = seq<string>

  /** The iteration marker. */
  const Star: string := "*"

  /** A segment that ends in `*`: one iteration level ("looper"). */
  type Looper = p: Path | |p| > 0 && p[|p| - 1] == Star witness [Star]

  /** The path a looper iterates over: the looper without its `*`
      (`path.slice(0, -1)`). */
  function Adjusted(l: Looper): (p: Path)
    ensures p + [Star] == l
  {
    l[..|l| - 1]
  }

  /** All segments of a path concatenated back into one token list. */
  function Concat(segs: seq<Path>): Path
    decreases |segs|
  {
    if |segs| == 0 then [] else segs[0] + Concat(segs[1..])
  }

  /** The shape `splitStar` promises: every segment is non-empty, `*` occurs
      in a segment only as its last token, and every segment but the last
      ends in `*`. */
  ghost predicate WellSegmented(segs: seq<Path>) {
    forall k :: 0 <= k < |segs| ==>
      && |segs[k]| > 0
      && Star !in segs[k][..|segs[k]| - 1]
      && (k < |segs| - 1 ==> segs[k][|segs[k]| - 1] == Star)
  }

  /** The loop of `splitStar`, from the token list still to be read and the
      tokens `trailing` collected since the last `*`. */
  function SplitStarFrom(tokens: Path, trailing: Path): (segs: seq<Path>)
    requires Star !in trailing
    ensures WellSegmented(segs)
    ensures Concat(segs) == trailing + tokens
    ensures |trailing + tokens| > 0 ==> |segs| > 0
    decreases |tokens|
  {
    if |tokens| == 0 then
      if |trailing| > 0 then [trailing] else []
    else if tokens[0] == Star then
      var seg := trailing + [Star];
      var rest := SplitStarFrom(tokens[1..], []);
      assert seg[..|seg| - 1] == trailing;
      assert forall k :: 1 <= k < |[seg] + rest| ==> ([seg] + rest)[k] == rest[k - 1];
      assert trailing + tokens == seg + tokens[1..];
      [seg] + rest
    else
      assert trailing + tokens == (trailing + [tokens[0]]) + tokens[1..];
      SplitStarFrom(tokens[1..], trailing + [tokens[0]])
  }

  /** `splitStar` applied to the already `.`-split tokens of a column; a
      non-empty token list gives at least one segment. */
  function SplitStar(tokens: Path): (segs: seq<Path>)
    ensures |tokens| > 0 ==> |segs| > 0
  {
    assert [] + tokens == tokens;
    SplitStarFrom(tokens, [])
  }

  /** The segments of `splitStar` concatenate back to exactly the tokens and
      have the shape `WellSegmented` describes. */
  lemma SplitStarShape(tokens: Path)
    ensures WellSegmented(SplitStar(tokens))
    ensures Concat(SplitStar(tokens)) == tokens
  {
    assert [] + tokens == tokens;
  }

  /** Tokens without `*` are collected into the running segment. */
  lemma {:induction false} SplitStarPlain(plain: Path, rest: Path, trailing: Path)
    requires Star !in plain && Star !in trailing
    ensures SplitStarFrom(plain + rest, trailing) == SplitStarFrom(rest, trailing + plain)
    decreases |plain|
  {
    if |plain| > 0 {
      assert (plain + rest)[0] == plain[0];
      assert (plain + rest)[1..] == plain[1..] + rest;
      SplitStarPlain(plain[1..], rest, trailing + [plain[0]]);
      assert trailing + [plain[0]] + plain[1..] == trailing + plain;
    } else {
      assert plain + rest == rest;
      assert trailing + plain == trailing;
    }
  }

  /** `splitStar` is the inverse of concatenation on well-segmented lists:
      together with the contract of `SplitStar` this makes it a bijection
      between token lists and well-segmented segment lists. */
  lemma {:induction false} SplitStarConcat(segs: seq<Path>)
    requires WellSegmented(segs)
    ensures SplitStar(Concat(segs)) == segs
    decreases |segs|
  {
    if |segs| > 0 {
      var x := segs[0];
      var body := x[..|x| - 1];
      WellSegmentedTail(segs);
      assert x == body + [x[|x| - 1]];
      var rest := Concat(segs[1..]);
      assert Concat(segs) == body + ([x[|x| - 1]] + rest);
      SplitStarPlain(body, [x[|x| - 1]] + rest, []);
      assert [] + body == body;
      if x[|x| - 1] == Star {
        SplitStarConcat(segs[1..]);
        assert ([x[|x| - 1]] + rest)[1..] == rest;
        assert [] + rest == rest;
        assert [segs[0]] + segs[1..] == segs;
      } else {
        assert |segs| == 1;
        assert rest == [];
        assert SplitStarFrom([x[|x| - 1]], body) == SplitStarFrom([], body + [x[|x| - 1]]);
      }
    }
  }

  /** A token list without `*` is a single, non-iterating segment. */
  lemma SplitStarNoStar(tokens: Path)
    requires |tokens| > 0 && Star !in tokens
    ensures SplitStar(tokens) == [tokens]
  {
    SplitStarPlain(tokens, [], []);
    assert tokens + [] == tokens;
    assert [] + tokens == tokens;
  }

  /** The segments that end in `*`, in order (the `onlyStars` filter). */
  function StarSegs(segs: seq<Path>): (r: seq<Looper>)
    ensures |r| <= |segs|
    decreases |segs|
  {
    if |segs| == 0 then []
    else if |segs[0]| > 0 && segs[0][|segs[0]| - 1] == Star then [segs[0]] + StarSegs(segs[1..])
    else StarSegs(segs[1..])
  }

  /** The filter keeps exactly the segments that end in `*`. */
  lemma {:induction false} StarSegsKeeps(segs: seq<Path>)
    ensures forall x :: x in StarSegs(segs) <==> x in segs && |x| > 0 && x[|x| - 1] == Star
    decreases |segs|
  {
    if |segs| > 0 {
      StarSegsKeeps(segs[1..]);
      assert segs == [segs[0]] + segs[1..];
    }
  }

  /** On a well-segmented list the `*`-segments are all segments but the
      last, plus the last one when it ends in `*` too. */
  lemma {:induction false} StarSegsOfWellSegmented(segs: seq<Path>)
    requires |segs| > 0 && WellSegmented(segs)
    ensures var last := segs[|segs| - 1];
      StarSegs(segs) == if last[|last| - 1] == Star then segs else segs[..|segs| - 1]
    decreases |segs|
  {
    var last := segs[|segs| - 1];
    if |segs| > 1 {
      assert segs[0][|segs[0]| - 1] == Star;
      assert StarSegs(segs) == [segs[0]] + StarSegs(segs[1..]);
      WellSegmentedTail(segs);
      StarSegsOfWellSegmented(segs[1..]);
      assert segs[1..][|segs[1..]| - 1] == last;
      if last[|last| - 1] == Star {
        assert [segs[0]] + segs[1..] == segs;
      } else {
        assert segs[1..][..|segs[1..]| - 1] == segs[1..|segs| - 1];
        assert [segs[0]] + segs[1..|segs| - 1] == segs[..|segs| - 1];
      }
    } else {
      assert segs[1..] == [] && segs[..0] == [];
    }
  }

  /** Dropping the first segment keeps a list well segmented. */
  lemma WellSegmentedTail(segs: seq<Path>)
    requires |segs| > 0 && WellSegmented(segs)
    ensures WellSegmented(segs[1..])
  {
    forall k | 0 <= k < |segs[1..]|
      ensures |segs[1..][k]| > 0 && Star !in segs[1..][k][..|segs[1..][k]| - 1]
      ensures k < |segs[1..]| - 1 ==> segs[1..][k][|segs[1..][k]| - 1] == Star
    {
      assert segs[1..][k] == segs[k + 1];
    }
  }

  /** Every token of every segment comes from the token list. */
  lemma {:induction false} ConcatMembers(segs: seq<Path>, k: nat, j: nat)
    requires k < |segs| && j < |segs[k]|
    ensures segs[k][j] in Concat(segs)
    decreases k
  {
    if k > 0 {
      ConcatMembers(segs[1..], k - 1, j);
    }
  }
}

=== FILE: registry.dfy ===
/** The looper registry: the `*`-ending segments of every column, merged by
    position into one list of iteration levels. */
module Registry {
  import opened Wrappers
  import opened Paths

  /** `arrayEquals`: same length and the same token at every index. */
  function ArrayEquals(a: Path, b: Path): (r: bool)
    ensures r <==> a == b
  {
    |a| == |b| && forall i :: 0 <= i < |a| ==> a[i] == b[i]
  }

  /** `stars` agrees with `loopers` wherever both have a segment. */
  ghost predicate Agrees(loopers: seq<Looper>, stars: seq<Looper>) {
    forall j :: 0 <= j < |stars| && j < |loopers| ==> stars[j] == loopers[j]
  }

  /** The list after registering `stars`: the known loopers, extended by the
      segments of `stars` that lie beyond them. */
  function Merge(loopers: seq<Looper>, stars: seq<Looper>): seq<Looper> {
    if |stars| <= |loopers| then loopers else loopers + stars[|loopers|..]
  }

  /** The `onlyStars.forEach` of one column, from position `i` on: a segment
      at a known position must equal the looper there, or registration fails
      with "loops don't match"; a segment at a new position is appended. */
  function RegisterFrom(loopers: seq<Looper>, stars: seq<Looper>, i: nat): (r: Result<seq<Looper>>)
    requires i <= |stars| && i <= |loopers|
    requires forall j :: 0 <= j < i ==> stars[j] == loopers[j]
    ensures r.Ok? <==> forall j :: i <= j < |stars| && j < |loopers| ==> stars[j] == loopers[j]
    ensures r.Ok? ==> r.value == Merge(loopers, stars)
    ensures r.Err? ==> exists j :: i <= j < |stars| && j < |loopers| && stars[j] != loopers[j]
                                 && r.error == LoopMismatch(stars[j], loopers[j])
    decreases |stars| - i
  {
    if i == |stars| then
      assert |stars| <= |loopers| ==> loopers == Merge(loopers, stars);
      Ok(loopers)
    else if i < |loopers| then
      if ArrayEquals(stars[i], loopers[i]) then RegisterFrom(loopers, stars, i + 1)
      else Err(LoopMismatch(stars[i], loopers[i]))
    else
      var grown := loopers + [stars[i]];
      var r := RegisterFrom(grown, stars, i + 1);
      assert r.Ok? ==> r.value == Merge(loopers, stars) by {
        if |stars| > |grown| {
          assert grown + stars[|grown|..] == loopers + stars[|loopers|..];
        } else {
          assert stars[|loopers|..] == [stars[i]];
        }
      }
      r
  }

  /** Registering one column's `*`-segments succeeds exactly when they agree
      with the loopers known so far, and then yields their merge. */
  function Register(loopers: seq<Looper>, stars: seq<Looper>): (r: Result<seq<Looper>>)
    ensures r.Ok? <==> Agrees(loopers, stars)
    ensures r.Ok? ==> r.value == Merge(loopers, stars)
    ensures r.Err? ==> r.error.LoopMismatch?
  {
    RegisterFrom(loopers, stars, 0)
  }

  /** Position `i` of a merge holds the known looper there, or else the
      new segment; agreeing lists have the same segment where both reach. */
  lemma MergeAt(loopers: seq<Looper>, stars: seq<Looper>, i: nat)
    requires Agrees(loopers, stars) && (i < |loopers| || i < |stars|)
    ensures i < |Merge(loopers, stars)|
    ensures i < |loopers| ==> Merge(loopers, stars)[i] == loopers[i]
    ensures i >= |loopers| ==> Merge(loopers, stars)[i] == stars[i]
    ensures i < |loopers| && i < |stars| ==> stars[i] == loopers[i]
  {
  }
}

=== FILE: resolve.dfy ===
/** Path resolution (`getValue`) and collection enumeration (`getIterator`). */
module Resolve {
  import opened Wrappers
  import opened Json
  import opened Paths

  predicate IsDigit(ch: char) {
    '0' <= ch <= '9'
  }

  /** The number a string of decimal digits denotes. */
  function DecimalValue(s: string): nat
    requires forall i :: 0 <= i < |s| ==> IsDigit(s[i])
    decreases |s|
  {
    if |s| == 0 then 0
    else
      assert IsDigit(s[|s| - 1]);
      10 * DecimalValue(s[..|s| - 1]) + (s[|s| - 1] as int - '0' as int)
  }

  /** `parseInt(token)` used as an array index. A token made only of decimal
      digits is that index; any other token stands for an index that names
      no element (NaN, or a negative number), represented by `None`. */
  function ParseIndex(token: string): (r: Option<nat>)
    ensures r.Some? <==> |token| > 0 && forall i :: 0 <= i < |token| ==> IsDigit(token[i])
  {
    if |token| > 0 && forall i :: 0 <= i < |token| ==> IsDigit(token[i])
    then Some(DecimalValue(token))
    else None
  }

  /** The decimal numeral of `n`, most significant digit first: the token
      a caller writes to address element `n` of an array. It parses back to
      `n`. */
  function Decimal(n: nat): (s: string)
    ensures |s| > 0 && forall i :: 0 <= i < |s| ==> IsDigit(s[i])
    ensures ParseIndex(s) == Some(n)
    decreases n
  {
    var d := ['0' + (n % 10) as char];
    if n < 10 then
      assert d[..0] == [];
      assert DecimalValue(d) == 10 * DecimalValue([]) + (d[0] as int - '0' as int) == n;
      d
    else
      var front := Decimal(n / 10);
      var s := front + d;
      assert s[..|s| - 1] == front;
      assert DecimalValue(s) == 10 * (n / 10) + n % 10;
      s
  }

  /** `getValue(path, cur)`: walk the tokens of `path` from `cur`.
      - On an array, an empty array or an index at or past its end ends the
        walk with `undefined`; an index that names no element makes the
        current value `undefined` and the walk goes on.
      - On `undefined`, any further token is an error.
      - On an object, a missing key ends the walk with `undefined`.
      - On null or a primitive the `in` test fails with an error. */
  function GetValue(path: Path, cur: Value): (r: Result<Value>)
    ensures |path| == 0 ==> r == Ok(cur)
    ensures |path| > 0 && cur == Undefined ==> r == Err(UndefinedStep(path[0]))
    ensures r.Err? ==> r.error.UndefinedStep? || r.error.NotAnObject?
    decreases |path|
  {
    if |path| == 0 then Ok(cur)
    else
      match cur
      case Undefined => Err(UndefinedStep(path[0]))
      case Def(JArr(a)) =>
        if |a| == 0 then Ok(Undefined)
        else (
          match ParseIndex(path[0])
          case Some(i) => if i >= |a| then Ok(Undefined) else GetValue(path[1..], Def(a[i]))
          case None => GetValue(path[1..], Undefined))
      case Def(JObj(es)) =>
        (match Lookup(es, path[0])
         case None => Ok(Undefined)
         case Some(v) => GetValue(path[1..], Def(v)))
      case Def(_) => Err(NotAnObject(path[0]))
  }

  /** A step that finds nothing but is not an error: an empty array, an
      index at or past the end, or an absent key. */
  predicate Missing(cur: Json, token: string) {
    match cur
    case JArr(a) => |a| == 0 || (ParseIndex(token).Some? && ParseIndex(token).value >= |a|)
    case JObj(es) => Lookup(es, token).None?
    case _ => false
  }

  /** The loop of `getValue`, statement for statement (an early `return` for
      each way the walk ends), computing exactly the recursive `GetValue`. */
  method ResolveLoop(path: Path, obj: Value) returns (r: Result<Value>)
    ensures r == GetValue(path, obj)
  {
    var current := obj;
    var i := 0;
    while i < |path|
      invariant 0 <= i <= |path|
      invariant GetValue(path, obj) == GetValue(path[i..], current)
    {
      var pathEl := path[i];
      assert path[i..][1..] == path[i + 1..];
      if current.Def? && current.json.JArr? {
        var a := current.json.elems;
        if |a| == 0 {
          return Ok(Undefined);
        }
        var index := ParseIndex(pathEl);
        if index.Some? && index.value >= |a| {
          return Ok(Undefined);
        }
        current := if index.Some? then Def(a[index.value]) else Undefined;
      } else if current.Undefined? {
        return Err(UndefinedStep(pathEl));
      } else if current.json.JObj? {
        var found := Lookup(current.json.entries, pathEl);
        if found.None? {
          return Ok(Undefined);
        }
        current := Def(found.value);
      } else {
        return Err(NotAnObject(pathEl));
      }
      i := i + 1;
    }
    return Ok(current);
  }

  /** Resolution is a walk: resolving `p + q` resolves `p` and, when that
      reaches a defined value, resolves `q` from there; an error on `p` is the
      error of the whole. */
  lemma {:induction false} GetValueAppend(p: Path, q: Path, cur: Value)
    ensures GetValue(p, cur).Ok? && GetValue(p, cur).value.Def? ==>
      GetValue(p + q, cur) == GetValue(q, GetValue(p, cur).value)
    ensures GetValue(p, cur).Err? ==> GetValue(p + q, cur) == GetValue(p, cur)
    decreases |p|
  {
    if |p| > 0 {
      assert (p + q)[0] == p[0];
      assert (p + q)[1..] == p[1..] + q;
      match cur
      case Undefined =>
      case Def(j) =>
        match j
        case JArr(a) =>
          if |a| > 0 {
            match ParseIndex(p[0]) {
              case Some(i) =>
                if i < |a| {
                  GetValueAppend(p[1..], q, Def(a[i]));
                }
              case None =>
                GetValueAppend(p[1..], q, Undefined);
            }
          }
        case JObj(es) => {
          match Lookup(es, p[0])
          case None =>
          case Some(v) =>
            GetValueAppend(p[1..], q, Def(v));
        }
        case _ =>
    } else {
      assert p + q == q;
    }
  }

  /** Missing data is not an error: once the walk meets an empty array, an
      index past the end or an absent key, the result is `undefined`, however
      many tokens follow. */
  lemma MissingIsUndefined(p: Path, token: string, rest: Path, root: Value, cur: Json)
    requires GetValue(p, root) == Ok(Def(cur))
    requires Missing(cur, token)
    ensures GetValue(p + [token] + rest, root) == Ok(Undefined)
  {
    GetValueAppend(p, [token] + rest, root);
    assert p + [token] + rest == p + ([token] + rest);
    assert ([token] + rest)[0] == token;
  }

  /** Stepping into `undefined` with a token left is an error: after an index
      that names no element, any further token fails. */
  lemma UndefinedThenStepFails(p: Path, bad: string, token: string, rest: Path, root: Value, a: seq<Json>)
    requires GetValue(p, root) == Ok(Def(JArr(a)))
    requires |a| > 0 && ParseIndex(bad).None?
    ensures GetValue(p + [bad, token] + rest, root) == Err(UndefinedStep(token))
  {
    GetValueAppend(p, [bad, token] + rest, root);
    assert p + [bad, token] + rest == p + ([bad, token] + rest);
    assert ([bad, token] + rest)[1..] == [token] + rest;
    assert ([token] + rest)[0] == token;
  }

  /** The one-character strings `Object.values` gives for a string. */
  function Chars(s: string): (r: seq<Json>)
    ensures |r| == |s|
    ensures forall i :: 0 <= i < |s| ==> r[i] == JStr([s[i]])
  {
    seq(|s|, i requires 0 <= i < |s| => JStr([s[i]]))
  }

  /** `getIterator(val)`: the elements of an array, the values of an object in
      key order, the characters of a string, nothing for a number or boolean;
      `undefined` and null fail. */
  function GetIterator(v: Value): (r: Result<seq<Json>>)
    ensures r.Err? <==> v == Undefined || v == Def(JNull)
    ensures r.Err? ==> r.error == EmptyIterable
    ensures v.Def? && v.json.JArr? ==> r == Ok(v.json.elems)
    ensures v.Def? && v.json.JObj? ==> r == Ok(Values(v.json.entries))
    ensures v.Def? && v.json.JStr? ==> r == Ok(Chars(v.json.s))
    ensures v.Def? && (v.json.JNum? || v.json.JBool?) ==> r == Ok([])
  {
    match v
    case Undefined => Err(EmptyIterable)
    case Def(JNull) => Err(EmptyIterable)
    case Def(JArr(a)) => Ok(a)
    case Def(JObj(es)) => Ok(Values(es))
    case Def(JStr(s)) => Ok(Chars(s))
    case Def(_) => Ok([])
  }

  /* Enumerating a collection and addressing it with one token reach the
     same elements. */

  /** The `i`-th element an array's iterator yields is what `getValue`
      finds under the numeral of `i`. */
  lemma ArrayElementsAreIndexed(a: seq<Json>, i: nat)
    requires i < |a|
    ensures GetIterator(Def(JArr(a))).Ok? && i < |GetIterator(Def(JArr(a))).value|
    ensures GetValue([Decimal(i)], Def(JArr(a))) == Ok(Def(GetIterator(Def(JArr(a))).value[i]))
  {
    assert [Decimal(i)][1..] == [];
  }

  /** Whatever one token finds in an array is an element its iterator
      yields. */
  lemma IndexedAreArrayElements(a: seq<Json>, token: string, x: Json)
    requires GetValue([token], Def(JArr(a))) == Ok(Def(x))
    ensures x in GetIterator(Def(JArr(a))).value
  {
    assert [token][1..] == [];
    var i := ParseIndex(token).value;
    assert GetValue([], Def(a[i])) == Ok(Def(x));
  }

  /** The `i`-th value an object's iterator yields is what `getValue`
      finds under the `i`-th key. */
  lemma ObjectValuesAreKeyed(es: seq<(string, Json)>, i: nat)
    requires DistinctKeys(es) && i < |es|
    ensures GetIterator(Def(JObj(es))).Ok? && i < |GetIterator(Def(JObj(es))).value|
    ensures GetValue([Keys(es)[i]], Def(JObj(es))) == Ok(Def(GetIterator(Def(JObj(es))).value[i]))
  {
    ValueUnderKey(es, i);
    assert [Keys(es)[i]][1..] == [];
  }

  /** Whatever one token finds in an object is a value its iterator
      yields. */
  lemma KeyedAreObjectValues(es: seq<(string, Json)>, token: string, x: Json)
    requires GetValue([token], Def(JObj(es))) == Ok(Def(x))
    ensures x in GetIterator(Def(JObj(es))).value
  {
    assert [token][1..] == [];
    var k :| 0 <= k < |es| && es[k] == (token, Lookup(es, token).value);
    assert Values(es)[k] == x;
  }
}

=== FILE: strings.dfy ===
/** String splitting, joining and trimming as JavaScript's
    `String.prototype.split` (with a one-character separator),
    `Array.prototype.join` and `String.prototype.trim` do them. */
module Strings {

  /** `s.split(c)`: the pieces of `s` between occurrences of `c`. There is
      always at least one piece (`"".split(c)` is `[""]`), no piece contains
      `c`, and joining the pieces with `c` gives `s` back. */
  function SplitOn(s: string, c: char): (r: seq<string>)
    ensures |r| >= 1
    ensures forall i :: 0 <= i < |r| ==> c !in r[i]
    ensures Join(r, c) == s
    decreases |s|
  {
    if |s| == 0 then [""]
    else
      var rest := SplitOn(s[1..], c);
      if s[0] == c then
        [""] + rest
      else
        var r := [[s[0]] + rest[0]] + rest[1..];
        assert r[1..] == rest[1..];
        assert s == [s[0]] + s[1..];
        JoinCons(rest, c);
        JoinCons(r, c);
        r
  }

  /** `parts.join(c)`. */
  function Join(parts: seq<string>, c: char): string
    decreases |parts|
  {
    if |parts| == 0 then ""
    else if |parts| == 1 then parts[0]
    else parts[0] + [c] + Join(parts[1..], c)
  }

  /** Joining a non-empty list is its head followed, when there are more
      parts, by the separator and the join of the rest. */
  lemma JoinCons(parts: seq<string>, c: char)
    requires |parts| >= 1
    ensures Join(parts, c) == parts[0] + (if |parts| == 1 then "" else [c] + Join(parts[1..], c))
  {
  }

  /** A piece that holds no separator splits into itself. */
  lemma {:induction false} SplitPlain(x: string, c: char)
    requires c !in x
    ensures SplitOn(x, c) == [x]
    decreases |x|
  {
    if |x| > 0 {
      SplitPlain(x[1..], c);
      assert [x[0]] + x[1..] == x;
    }
  }

  /** Splitting `x c y`, where `x` holds no separator, gives `x` and then
      the pieces of `y`. */
  lemma {:induction false} SplitAfterSeparator(x: string, y: string, c: char)
    requires c !in x
    ensures SplitOn(x + [c] + y, c) == [x] + SplitOn(y, c)
    decreases |x|
  {
    var s := x + [c] + y;
    if |x| == 0 {
      assert s[0] == c && s[1..] == y;
    } else {
      assert s[1..] == x[1..] + [c] + y;
      SplitAfterSeparator(x[1..], y, c);
      assert [x[0]] + x[1..] == x;
    }
  }

  /** Splitting undoes joining, for non-empty lists of separator-free
      pieces: the other half of the round trip stated on `SplitOn`. */
  lemma {:induction false} SplitJoin(parts: seq<string>, c: char)
    requires |parts| >= 1
    requires forall i :: 0 <= i < |parts| ==> c !in parts[i]
    ensures SplitOn(Join(parts, c), c) == parts
    decreases |parts|
  {
    if |parts| == 1 {
      SplitPlain(parts[0], c);
    } else {
      SplitJoin(parts[1..], c);
      SplitAfterSeparator(parts[0], Join(parts[1..], c), c);
      assert [parts[0]] + parts[1..] == parts;
    }
  }

  /** Joining is injective on non-empty lists of separator-free pieces, so
      comparing joined paths compares the paths themselves. */
  lemma JoinInjective(a: seq<string>, b: seq<string>, c: char)
    requires |a| >= 1 && |b| >= 1
    requires forall i :: 0 <= i < |a| ==> c !in a[i]
    requires forall i :: 0 <= i < |b| ==> c !in b[i]
    requires Join(a, c) == Join(b, c)
    ensures a == b
  {
    SplitJoin(a, c);
    SplitJoin(b, c);
  }

  /** The characters `String.prototype.trim` removes: the ECMAScript
      WhiteSpace and LineTerminator code points. */
  predicate IsJsSpace(ch: char) {
    || ('\U{9}' <= ch <= '\U{D}')
    || ch == ' ' || ch == '\U{A0}' || ch == '\U{1680}'
    || ('\U{2000}' <= ch <= '\U{200A}')
    || ch == '\U{2028}' || ch == '\U{2029}' || ch == '\U{202F}' || ch == '\U{205F}'
    || ch == '\U{3000}' || ch == '\U{FEFF}'
  }

  /** `s` with its leading white space removed: a suffix of `s` that does
      not start with white space, and everything cut off is white space. */
  function TrimStart(s: string): (r: string)
    ensures |r| <= |s| && r == s[|s| - |r|..]
    ensures forall i :: 0 <= i < |s| - |r| ==> IsJsSpace(s[i])
    ensures |r| > 0 ==> !IsJsSpace(r[0])
    decreases |s|
  {
    if |s| > 0 && IsJsSpace(s[0]) then TrimStart(s[1..]) else s
  }

  /** `s` with its trailing white space removed: a prefix of `s` that does
      not end with white space, and everything cut off is white space. */
  function TrimEnd(s: string): (r: string)
    ensures |r| <= |s| && r == s[..|r|]
    ensures forall i :: |r| <= i < |s| ==> IsJsSpace(s[i])
    ensures |r| > 0 ==> !IsJsSpace(r[|r| - 1])
    decreases |s|
  {
    if |s| > 0 && IsJsSpace(s[|s| - 1]) then TrimEnd(s[..|s| - 1]) else s
  }

  /** `s.trim()`. */
  function Trim(s: string): string {
    TrimEnd(TrimStart(s))
  }

  /** True when `s` neither starts nor ends with white space. */
  predicate Trimmed(s: string) {
    |s| == 0 || (!IsJsSpace(s[0]) && !IsJsSpace(s[|s| - 1]))
  }

  /** Trimming removes white space at both ends and nothing else: the result
      is trimmed, and a string that is already trimmed is left unchanged. */
  lemma TrimSpec(s: string)
    ensures Trimmed(Trim(s))
    ensures Trimmed(s) ==> Trim(s) == s
  {
    var a := TrimStart(s);
    var r := TrimEnd(a);
    if |r| > 0 {
      assert r[0] == a[0];
    }
    if Trimmed(s) && |s| > 0 {
      assert a == s;
      assert r == s;
    }
  }
}

=== FILE: wrappers.dfy ===
/** Failure-carrying datatypes shared by the whole model, and the errors
    the flattening engine can raise. */
module Wrappers {

  datatype Option<+T> = None | Some(value: T)

  /** Every way a call of the engine can fail. Each constructor stands for one
      `throw` (or one JavaScript TypeError) in `index.js`. */
  datatype Error =
    | BadDefinition                                          // definition is not an array, object or string
    | ColumnNotString                                        // `column.split` on a non-string column
    | LoopMismatch(found: seq<string>, expected: seq<string>) // two columns disagree at one iteration depth
    | UndefinedStep(token: string)                           // a path token applied to an undefined value
    | NotAnObject(token: string)                             // the `in` operator applied to null or a primitive
    | EmptyIterable                                          // `getIterator` on undefined or null
    | MissingLooper                                          // no iterator registered for a column's base path

  /** The outcome of a call that may throw. */
  datatype Result<+T> = Ok(value: T) | Err(error: Error) {
    predicate IsFailure() {
      Err?
    }

    function PropagateFailure<U>(): Result<U>
      requires Err?
    {
      Err(error)
    }

    function Extract(): T
      requires Ok?
    {
      value
    }
  }
}
